=== FILE: README.md ===
# Línea Ética — a Dafny model of the intake and review logic

The system is an ethics-complaint line. A public web form (`public/script.js`) collects a report. The report may be anonymous and may carry attachments. Two Express servers can store it: `server.js` and its alternate copy `server-DESKTOP-KE4MV2E.js`. A review dashboard (`public/dashboard-SistemasJean.js`) lets an authenticated reviewer filter reports, count them, change their status and export them.

This project models the decision rules underneath that glue, as pure Dafny functions over immutable datatypes, and proves what each rule promises.

| file | module | what it models |
|---|---|---|
| `js.dfy` | `Js` | JavaScript primitives the rules rely on: missing values and truthiness (`x \|\| fallback`), `trim`, `toLowerCase`, `includes`, `indexOf`/`lastIndexOf` |
| `upload.dfy` | `Upload` | the two `fileFilter`s: Node's `path.extname`, the unanchored allow-list regular expressions, the 5 MiB ceiling |
| `json_text.dfy` | `JsonText` | `JSON.stringify` of a list of strings, and a reader that recovers the list from that text |
| `dashboard.dfy` | `Dashboard` | report mapping, the conjunctive filter, status counts, label tables, truncation, the guarded status edit, the export row with anonymous redaction |
| `submit_server.dfy` | `Server` | `/api/submit-report` of `server.js` (required fields, anonymity, the `feedback` row, the comma-joined attachment names), `requireAuth`, `/api/auth/login` |
| `form_script.dfy` | `FormScript` | the admin-login validators, the point-of-sale field, the authorisation-PDF lookup, anonymous mode, the single-date/date-range fields, the attachment size gate |
| `desktop_server.dfy` | `DesktopServer` | the alternate server's `isConnected` flag and its `/api/submit-report` (connection guard, explicit anonymity flag, JSON attachment list, returned id) |

Inputs that come from outside the code are parameters:
- **Dates** are day numbers. A dashboard date field is unset, JSON null, unparsable text or a day, because `new Date` and `formatDate` treat those four differently.
- **Period cutoffs** ("a month ago", "three months ago", "a year ago") are an input record `Dashboard.Cutoffs`.
- **`bcrypt.compare`** is a function parameter `checkPassword`.
- **`GETDATE()`** is `now`, and **`uuidv4()`** is `newId`.
- **Database outcomes** are small enumerations: the connection fails, the insert fails, or it succeeds.
- **The alternate server's connection** is a state machine (`DesktopServer.Conn`). Its events are: a connect resolves or fails, a probe succeeds or fails, the pool errs, a submission passes the guard, and a submission's `INSERT` settles. The model counts the connects, probes and submissions still pending, so connection events can fall between a submission's guard and its catch.

Behaviour of the code that is easy to misread, modelled as written:
- **Required fields.** `server.js` requires only `tipo_reporte`, `area` and `descripcion`, and checks truthiness without trimming. A body of `"   "` passes.
- **Identity fields.** The identity fields are nulled together when the report is anonymous. A non-anonymous row copies name, email and phone as sent, so any of them may still be missing.
- **Anonymity rules.** The two servers decide anonymity differently. `server.js` looks at the reporter name. The alternate server looks at the exact string flag `anonymous === 'true'`. Both are modelled as written.
- **Field names.** Producers and consumers disagree on field names:
  - The dashboard reads `tipo`, `asunto`, `mensaje`, `fecha`, `punto_venta` and `attachment_urls`.
  - `server.js` reads `nombre_reportante`, while the alternate server reads `name`.
  - The success answer of `server.js` reads `reportData.tipo_reporte` and `reportData.es_anonimo`, which do not exist. `Server.Submit` returns those two as `None`.

  Each file's mapping is modelled as written.

## Model

| member | source | states |
|---|---|---|
| Js.Trim | server.js:435 | the result is a slice of the input whose removed prefix and suffix are all ECMAScript whitespace; it is empty exactly when the input is all whitespace, and otherwise neither starts nor ends with whitespace |
| Js.Or | server.js:452-454 | `v \|\| fallback` gives the value when it is a non-empty string and the fallback otherwise, so a non-empty fallback never yields "" |
| Js.OrNull | server.js:459-464 | `v \|\| null` is NULL exactly when the value is missing or "", and otherwise the value itself |
| Js.OrNullThenOr | server.js:461-464 | storing `v \|\| null` and reading it back with `\|\| fallback` equals `v \|\| fallback`, and a second `\|\| null` changes nothing |
| Js.ToLower | public/dashboard-SistemasJean.js:263 | same length; each upper-case ASCII or Latin-1 letter becomes its lower-case partner (32 code points on), no upper-case letter remains, and every other character is unchanged |
| Js.ToLowerIgnoresCase | public/dashboard-SistemasJean.js:301-302 | two texts lower-case alike iff they differ only in the case of their letters, so "PDF" and "pdf", or "Fraude" and "fraude", are treated alike |
| Js.ToLowerIdempotent | public/dashboard-SistemasJean.js:301-302 | lower-casing an already lower-cased text changes nothing |
| Js.Includes | public/dashboard-SistemasJean.js:303 | `s.includes(t)` is true exactly when `t` occurs in `s` at some index |
| Upload.Extname | server.js:94 | `path.extname` gives "" or a text that starts with '.', has no further '.' and no '/' |
| Upload.ExtnameOfPlainName | server.js:94 | for a slash-free name whose last '.' is not its first character, the extension is the text from that '.' |
| Upload.FileFilter | server.js:92-101 | a file passes exactly when its lower-cased extension contains some allow-list token AND its mimetype contains some token; otherwise the rejection message is returned |
| Upload.AcceptedNameHasExtension | server-DESKTOP-KE4MV2E.js:57-66 | with non-empty tokens, every accepted file name has a real extension |
| Upload.HiddenFileIsRefused | server-DESKTOP-KE4MV2E.js:58-62 | a file called ".pdf" is refused by either server, since `path.extname` gives it no extension |
| JsonText.Stringify | server-DESKTOP-KE4MV2E.js:160 | the text is bracketed, and is "[]" exactly for the empty list |
| JsonText.StringifyInjective | server-DESKTOP-KE4MV2E.js:160 | two lists are stored as the same text only if they are the same list |
| JsonText.ParseStringify | server-DESKTOP-KE4MV2E.js:160 | reading back the text `JSON.stringify` makes of a list of strings yields exactly that list, in order |
| Dashboard.MapReport | public/dashboard-SistemasJean.js:142-163 | `anonimo` holds iff the raw flag is the string 'true' or the boolean true; `estado` is never empty and defaults to 'pendiente'; `archivos` defaults to an empty list; every other field keeps its raw value under its dashboard name (`cargo` from `position`, `relacion` from `situation_relation`, the three incident dates) |
| Dashboard.MissingStatusCountsAsPending | public/dashboard-SistemasJean.js:161 | a row sent without a status is counted among the pending reports |
| Dashboard.AnonymousFlagDecidesRedaction | public/dashboard-SistemasJean.js:159 | a flag of 'true' or true exports a redacted row whatever the identity fields hold; any other flag value exports the name |
| Dashboard.TimeValue | public/dashboard-SistemasJean.js:280 | `new Date(value)` is the day for a day, 1970-01-01 for null, and invalid for an unset or unparsable value |
| Dashboard.Survives | public/dashboard-SistemasJean.js:264-309 | the early-return chain keeps a report exactly when each set control matches, the date is not before the chosen cutoff, and the lower-cased term occurs in the lower-cased subject or message |
| Dashboard.ApplyFilters | public/dashboard-SistemasJean.js:257-309 | the result is an order-preserving subsequence of the reports, and a report is in it iff it is in the input and meets every criterion |
| Dashboard.ApplyFiltersKeepsEveryCopy | public/dashboard-SistemasJean.js:264-309 | a report that meets the criteria occurs in the result as often as in the input, and one that does not never occurs |
| Dashboard.NoCriteriaKeepsEverything | public/dashboard-SistemasJean.js:257-276 | with every control unset the filter returns the list unchanged |
| Dashboard.ApplyFiltersIdempotent | public/dashboard-SistemasJean.js:264-309 | filtering the filtered list again with the same controls changes nothing |
| Dashboard.UnknownPeriodImposesNothing | public/dashboard-SistemasJean.js:282-295 | a period value other than the three known ones never removes a report |
| Dashboard.PeriodBoundIsInclusive | public/dashboard-SistemasJean.js:283-286 | a report dated exactly on the cutoff is kept |
| Dashboard.CountIn | public/dashboard-SistemasJean.js:426-430 | the count is at most the list length, equals it iff every status is in the set, is zero iff none is, and for one report is 1 iff its status is in the set |
| Dashboard.CountInConcat | public/dashboard-SistemasJean.js:426-430 | the count over a concatenation is the sum of the counts, which with the one-report case fixes the count of every list |
| Dashboard.CountInDisjointUnion | public/dashboard-SistemasJean.js:426-430 | counts over disjoint status sets add up to the count over their union |
| Dashboard.UpdateMetrics | public/dashboard-SistemasJean.js:414-431 | total is the filtered length; pending and resolved are the counts of reports in the pending and resolved states (CountIn), never exceeding the total together and zero iff no report has such a state |
| Dashboard.Label | public/dashboard-SistemasJean.js:445-468 | a known key shows its label and any other key shows itself |
| Dashboard.TipoLabelsDistinguish | public/dashboard-SistemasJean.js:446-456 | distinct report types get distinct labels, and no label is itself a type key |
| Dashboard.EstadoLabelsDistinguish | public/dashboard-SistemasJean.js:461-466 | distinct statuses get distinct labels |
| Dashboard.TruncateText | public/dashboard-SistemasJean.js:470-473 | "" for "", the text itself when it fits, otherwise exactly its first max(0, maxLength) characters followed by "..."; at most max + 3 characters |
| Dashboard.TruncateTextStable | public/dashboard-SistemasJean.js:470-473 | a truncated text truncated again with room for the ellipsis is unchanged |
| Dashboard.TruncateTextKeepsPrefix | public/dashboard-SistemasJean.js:470-473 | the result always starts with the text's first maxLength characters |
| Dashboard.FindById | public/dashboard-SistemasJean.js:501 | the index of the first report with the id, or None iff no report has it |
| Dashboard.EditReport | public/dashboard-SistemasJean.js:500-516 | only an allowed status for an existing id changes anything, and then only that report's status; not-found and refused answers leave the list as it was |
| Dashboard.EditIsVisibleOnLookup | public/dashboard-SistemasJean.js:500-516 | after an update the same lookup finds the same report, now with the new status |
| Dashboard.FilterRefs | public/dashboard-SistemasJean.js:264 | the positions of `allReports` whose report the filter keeps, increasing, a position kept iff its report meets every criterion |
| Dashboard.DerefFilterRefs | public/dashboard-SistemasJean.js:264-309 | the reports at the kept positions are what the filter returns |
| Dashboard.SurvivesIgnoresEstado | public/dashboard-SistemasJean.js:264-309 | no filter control reads the status |
| Dashboard.EditKeepsFilteredViewCurrent | public/dashboard-SistemasJean.js:509-512 | after the in-place status edit, the table and counters drawn from the old filtered objects show exactly what filtering the edited list afresh would show |
| Dashboard.DateCellOf | public/dashboard-SistemasJean.js:439-443 | 'N/A' iff the date is unset or null, "Invalid Date" iff it is unparsable, otherwise the day `new Date` reads |
| Dashboard.NullDateFilteredAsEpochButExportedMissing | public/dashboard-SistemasJean.js:439-443 | a null report date is filtered as 1970-01-01 yet exported as 'N/A'; unset and unparsable dates are never before a cutoff |
| Dashboard.ToSheetRow | public/dashboard-SistemasJean.js:689-707 | an anonymous report exports 'Anonimo' for name, email and phone, others the value or 'N/A'; each date column is `formatDate` of its own date; Tipo is the formatted type; the seven free-text columns are the value or 'N/A'; the attachment column is the length |
| Dashboard.AnonymousRowHidesIdentity | public/dashboard-SistemasJean.js:694-696 | the exported row of an anonymous report does not depend on its name, email or phone |
| Dashboard.ExportToExcel | public/dashboard-SistemasJean.js:681-708 | an empty list is refused; otherwise row i is the export row of the i-th filtered report, anonymous ones redacted |
| Server.HasRequiredFields | server.js:416-417 | passing needs all three fields present, and an empty one fails |
| Server.RequiredFieldsAreUntrimmedAndAlone | server.js:416-417 | only type, area and description decide the 400, and a description of blanks passes |
| Server.IsAnonymous | server.js:435 | a report is anonymous iff the reporter name is absent or only whitespace |
| Server.Join | server.js:428-431 | the joined text begins with the first name and is empty for no names |
| Server.Split | server.js:349 | splitting yields one more piece than the text has commas, none containing a comma |
| Server.SplitJoin | server.js:428-431 | for comma-free names, splitting the joined text gives back the names |
| Server.JoinCommas | server.js:428-431 | the joined text holds one comma per gap plus the commas inside the names |
| Server.AttachmentCountRecovered | server.js:349 | the notification's file count equals the number of stored files iff no stored name contains a comma |
| Server.BuildRow | server.js:447-465 | anonymous rows null name, email and phone, others copy them; company, position and relation get their defaults; subject falls back to the type; type, area and message are copied; no files gives NULL attachments |
| Server.IncidentDatesIndependent | server.js:462-464 | each incident date column depends only on its own field |
| Server.Submit | server.js:409-540 | 400 with no insert iff a required field is falsy; success iff the fields are present and the insert succeeds, and then the inserted row is the built row; database failures give 500 |
| Server.StoredAttachmentsListTheFiles | server.js:428-459 | a stored submission's attachment text splits back into exactly its comma-free file names |
| Server.RequireAuth | server.js:42-51 | the handler runs iff the session has a user, else 401 with the fixed message |
| Server.FindActive | server.js:663-681 | the first active user with that email, or None iff there is none |
| Server.Login | server.js:649-732 | 400 iff email or password is falsy; 200 iff the database is up and the first active user with that email accepts the password; 401 otherwise, with one message; on success only that user's last access changes and the session holds id, email, name and role; failures leave session and users alone |
| Server.LoginFailuresAreUniform | server.js:674-690 | an unknown email and a wrong password give the same status, message and session |
| Server.LoginOpensGate | server.js:705-710 | after a successful login the session passes `requireAuth` as that user |
| FormScript.MatchesEmail | public/script.js:530 | the computed decision agrees with the pattern `^[^\s@]+@[^\s@]+\.[^\s@]+$` stated with witnesses |
| FormScript.ValidateEmail | public/script.js:528-542 | "user required" iff the value is all whitespace; valid iff the trimmed value matches the pattern |
| FormScript.ValidatePassword | public/script.js:545-558 | valid iff the untrimmed value has at least 6 characters; "required" iff it is empty |
| FormScript.AdminLoginRequest | public/script.js:472-484 | the form posts the trimmed user and the password iff both validators pass |
| FormScript.AdminRequestPassesServerCheck | public/script.js:475-484 | a request the form lets through never gets the server's 400 |
| FormScript.FirstOptionWithValue | public/script.js:155 | the first option carrying the value, or None iff none does |
| FormScript.ActivatePos | public/script.js:122-171 | enabled iff the area is 'comercial_venta_posventa' and the company is one of the 11; disabled clears the value and shows all options; enabled shows exactly the placeholder and that company's options and keeps the value iff its option belongs to the company |
| FormScript.KeptValueIsOffered | public/script.js:143-158 | a value that survives activation belongs to a visible option |
| FormScript.ActivatePosIdempotent | public/script.js:137-158 | running the handler again on its own result changes nothing |
| FormScript.ShowsPdfAsWritten | public/script.js:86 | (as written) the panel opens iff the company is a point-of-sale company or an inherited property name |
| FormScript.ShowsPdf | public/script.js:86 | (corrected) the PDF is shown iff the company is one of the point-of-sale companies |
| FormScript.PdfKeysArePosCompanies | public/script.js:66-78 | the PDF map's keys are exactly the point-of-sale company list |
| FormScript.InheritedKeyShowsPdf | public/script.js:86 | (as written) a company named "constructor" shows the PDF panel though it has no document |
| FormScript.ShowsPdfAgreesOffInheritedKeys | public/script.js:86 | outside inherited names the condition as written and the intended one agree |
| FormScript.ToggleAnonymous | public/script.js:174-242 | on: name, email, phone, company, area, point of sale and incident date are cleared, `required` leaves the four identity fields, the PDF is hidden; off: `required` returns and the URL company is restored read-only |
| FormScript.AnonymousOnIdempotent | public/script.js:190-219 | switching anonymous mode on twice equals switching it on once |
| FormScript.AnonymousFormIsAnonymousAtServer | public/script.js:210 | a form sent in anonymous mode is anonymous for `server.js` |
| FormScript.CheckRange | public/script.js:416-432 | after a change on either range input, a filled range is ordered; the fields change iff both dates are set and the end is before the start, and then only the end is cleared |
| FormScript.Step | public/script.js:381-432 | choosing single clears the range, choosing range clears the single date, a visible input takes the new value (the end possibly cleared by the range check), and a hidden input changes nothing |
| FormScript.StepKeepsDatesConsistent | public/script.js:381-432 | every user action keeps single date and range exclusive and the range ordered |
| FormScript.RunKeepsDatesConsistent | public/script.js:381-432 | from a consistent start, no sequence of actions fills both a single date and a range, or leaves a reversed range |
| FormScript.CheckAttachmentSizes | public/script.js:271-280 | submission goes on iff no file exceeds 5 × 1024 × 1024 bytes, else the fixed message |
| DesktopServer.NextAsWritten | server-DESKTOP-KE4MV2E.js:74-107 | `isConnected` is raised only by a resolved connect and kept by every event that is not a failure; every failure lowers it; a pool error leaves the pending connects as they were; a loss-coded `INSERT` adds a connect whatever the flag is |
| DesktopServer.StrandedIsForever | server-DESKTOP-KE4MV2E.js:74-107 | as written, with the flag down, no connect pending and no submission in flight, no event can raise the flag again |
| DesktopServer.OnlyInFlightLossLeavesIdle | server-DESKTOP-KE4MV2E.js:118-123 | as written, with the flag down and no connect pending, only an in-flight `INSERT` settling with a loss code can bring a connect back |
| DesktopServer.InFlightLossReconnects | server-DESKTOP-KE4MV2E.js:180-183 | such an `INSERT` does bring one back: exactly one connect is then pending |
| DesktopServer.PoolErrorStrandsServer | server-DESKTOP-KE4MV2E.js:87-90 | (as written) from one pending connect (start-up), connect, a successful probe and then a pool error with no submission in flight leave the flag down, nothing pending and nothing in flight |
| DesktopServer.StrandedRefusesEverySubmit | server-DESKTOP-KE4MV2E.js:118-123 | (as written) once stranded, every later submission gets the 500 connection message and nothing is inserted |
| DesktopServer.Next | server-DESKTOP-KE4MV2E.js:87-90 | (corrected) a pool error also schedules a reconnect; otherwise the same as written |
| DesktopServer.IntendedNeverStrands | server-DESKTOP-KE4MV2E.js:87-90 | (corrected) a disconnected server always has a connect pending, in every history |
| DesktopServer.ConnectedOnlyAfterConnect | server-DESKTOP-KE4MV2E.js:71-89 | being connected implies a pool; a pool exists iff a connect resolved; from start-up, connected implies a connect resolved |
| DesktopServer.UploadUrls | server-DESKTOP-KE4MV2E.js:141-144 | one '/uploads/' + name per file, in upload order |
| DesktopServer.BuildParams | server-DESKTOP-KE4MV2E.js:147-168 | identity is nulled and the anonymous bit set iff the flag is exactly "true"; the stored attachment text reads back as the URL list and is "[]" with no files; other fields are passed as sent |
| DesktopServer.OnlyExactTrueHidesIdentity | server-DESKTOP-KE4MV2E.js:150-152 | any flag other than exactly "true" keeps name, email and phone |
| DesktopServer.Settle | server-DESKTOP-KE4MV2E.js:147-190 | once an `INSERT` has started, the reply depends only on how it settles: success iff it succeeds, with the inserted id; otherwise 500 'Error interno del servidor'; a loss code lowers the flag and adds one connect whatever the flag is by then |
| DesktopServer.Submit | server-DESKTOP-KE4MV2E.js:114-190 | with no connection event in between: no pool or not connected gives 500 with no insert; success iff connected and the insert succeeds, and then the returned id is the inserted id; ENOTOPEN/ECONNCLOSED lower the flag and start one connect |
| DesktopServer.InFlightInsertDecidesStranding | server-DESKTOP-KE4MV2E.js:180-183 | (as written) a submission that passed the guard before the pool error rescues the server if its `INSERT` fails with a loss code, and leaves it stranded if it succeeds |
| DesktopServer.LostConnectionRefusesNextSubmit | server-DESKTOP-KE4MV2E.js:180-183 | after a connection-loss error the next submission is refused by the guard |

## Left out

**Outside the decision rules (I/O and libraries)**
- SQL text, table creation, query results and collation. The insert is the row record it would bind.
- The login lookup compares emails exactly. SQL Server's case-insensitive collation is not modelled.
- bcrypt hashing and comparison. Comparison is the `checkPassword` parameter.
- multer storage and its own size limit, the e-mail notification and its HTML template, `fs`, express-session cookies and `GET /api/reports`.
- The unused `fechaIncidente` string built at server.js:437-445 has no effect and is not modelled.
- DOM and browser plumbing: styles, modals, `alert`/`prompt`, `fetch`, `sessionStorage`, the debounce timer, the XLSX workbook and its file name.
- The 10-second delay of the retry timer. A scheduled retry counts as a pending connect; when it fires is left open.

**Inputs and nondeterminism**
- Calendar arithmetic and locale formatting. Cutoffs and dates are integers supplied by the caller.
- `Math.random` in the average response time (public/dashboard-SistemasJean.js:434).

**Narrowed contracts and semantics**
- Js.ToLower: lower-cases ASCII and Latin-1 letters only. Other scripts are left unchanged, whereas `toLowerCase` would map them.
- Dashboard.TruncateText: lengths count characters, not UTF-16 code units, so text with astral characters is cut at a different place than JavaScript would cut it.
- FormScript.ValidatePassword: counts characters rather than UTF-16 code units, so a password of astral characters may be counted shorter than JavaScript counts it.
- Upload.Extname: its contract does not state that the extension is a suffix of the path. `Upload.ExtnameOfPlainName` gives the exact value for slash-free names only.
- Dashboard.Label: inherited property names (such as "toString") are treated as unknown keys, while `tipos[tipo]` would return a function for them.
- FormScript.ToggleAnonymous: the URL parameter is taken as already decoded. The extra `decodeURIComponent` (which throws on a stray '%') is not modelled.
- FormScript.Step: a change on a date input whose group is hidden is treated as impossible and ignored.
- Server.IsAnonymous: the reporter name is a string or absent. An extended urlencoded body or a repeated multipart field can make it an array or object; `.trim()` then throws and the handler answers 500, which the model does not cover.
- Server.Login: the email and password are strings or absent. A JSON number, array or object there is not modelled.
- DesktopServer.BuildParams: the anonymity flag is a string or absent. A repeated form field arriving as an array compares unequal to 'true', like any other non-string.

## Findings

| source | as written | input that shows it | evidently intended | confidence | as-written member | corrected member |
|---|---|---|---|---|---|---|
| server-DESKTOP-KE4MV2E.js:87-90 | the pool's 'error' handler sets `isConnected = false` and schedules no `connectDB`; the only other reconnect (lines 180-183) is in the catch of a submission that passed the connection guard | connect resolves, the probe succeeds, then the pool emits 'error' with no submission in flight: every later submission is answered 500 until the process restarts | a pool error schedules a reconnect like the other failures | medium, not executed | DesktopServer.PoolErrorStrandsServer | DesktopServer.IntendedNeverStrands |
| public/script.js:86 | `empresa && empresaPDFMap[empresa]` also finds names inherited from `Object.prototype` | company field (free text, or the `empresa` URL parameter) set to "constructor": the PDF panel opens with a link to a file that does not exist | show the authorisation PDF only for the 11 companies that have one | medium, not executed | FormScript.InheritedKeyShowsPdf | FormScript.ShowsPdf |

=== FILE: dashboard.dfy ===
/**
 The review dashboard's pure logic: mapping the server's rows into the
 dashboard's report records, the conjunctive filter over the in-memory list,
 the status counts, the label tables, text truncation, the guarded status
 edit and the spreadsheet row mapping with its anonymous redaction.
 */
module Dashboard {
  import opened Js

  /**
   The attachment value of a row: a JSON array of names, or text (the
   column is stored as NVARCHAR, so a row can carry it as one string).
   */
  datatype Attachments = Names(names: seq<string>) | Text(text: string)

  /** `archivos.length`: the number of names, or the number of characters of text. */
  function AttachmentLength(a: Attachments): nat {
    match a
    case Names(xs) => |xs|
    case Text(t) => |t|
  }

  /**
   A date field as a row carries it: unset (undefined or ""), JSON null, a
   truthy text `new Date` cannot parse, or a day number (days counted from
   1970-01-01).
   */
  datatype DateValue = Unset | NullDate | Unparsable | OnDay(day: int)

  /** The day of 1970-01-01, which `new Date(null)` denotes. */
  const EpochDay := 0

  /** `new Date(value)` as a day number; None for an invalid date (NaN). */
  function TimeValue(d: DateValue): (t: Option<int>)
    ensures t.Some? <==> d.NullDate? || d.OnDay?
    ensures d.OnDay? ==> t == Some(d.day)
    ensures d.NullDate? ==> t == Some(EpochDay)
  {
    match d
    case OnDay(day) => Some(day)
    case NullDate => Some(EpochDay)
    case _ => None
  }

  /** A row of `GET /api/reports` under the field names the dashboard reads. */
  datatype RawReport = RawReport(
    id: int,
    fecha: DateValue,
    fechaIncidente: DateValue,
    fechaIncidenteInicial: DateValue,
    fechaIncidenteFinal: DateValue,
    name: Option<string>,
    email: Option<string>,
    phone: Option<string>,
    company: Option<string>,
    position: Option<string>,
    situationRelation: Option<string>,
    area: Option<string>,
    puntoVenta: Option<string>,
    tipo: Option<string>,
    asunto: Option<string>,
    mensaje: Option<string>,
    anonymous: Scalar,
    attachmentUrls: Option<Attachments>,
    estado: Option<string>,
    createdAt: Option<int>)

  /** A report as the dashboard keeps it in `allReports`. */
  datatype Report = Report(
    id: int,
    fechaReporte: DateValue,
    fechaIncidente: DateValue,
    fechaInicialIncidente: DateValue,
    fechaFinalIncidente: DateValue,
    nombre: Option<string>,
    email: Option<string>,
    telefono: Option<string>,
    empresa: Option<string>,
    cargo: Option<string>,
    relacion: Option<string>,
    area: Option<string>,
    puntoVenta: Option<string>,
    tipo: Option<string>,
    asunto: Option<string>,
    mensaje: Option<string>,
    anonimo: bool,
    archivos: Attachments,
    estado: string,
    fechaCreacion: Option<int>)

  /** The status a report gets when the server sends none. */
  const DefaultEstado := "pendiente"

  /** The mapping `loadReportsData` applies to every row it receives. */
  function MapReport(raw: RawReport): (r: Report)
    ensures r.anonimo <==> raw.anonymous == Str("true") || raw.anonymous == Bool(true)
    ensures r.estado != ""
    ensures Truthy(raw.estado) ==> r.estado == raw.estado.value
    ensures !Truthy(raw.estado) ==> r.estado == DefaultEstado
    ensures raw.attachmentUrls.None? || raw.attachmentUrls == Some(Text("")) ==> r.archivos == Names([])
    ensures raw.attachmentUrls.Some? && raw.attachmentUrls != Some(Text("")) ==> r.archivos == raw.attachmentUrls.value
    ensures r.id == raw.id && r.fechaReporte == raw.fecha && r.fechaCreacion == raw.createdAt
    ensures r.tipo == raw.tipo && r.empresa == raw.company && r.area == raw.area && r.puntoVenta == raw.puntoVenta
    ensures r.asunto == raw.asunto && r.mensaje == raw.mensaje
    ensures r.nombre == raw.name && r.email == raw.email && r.telefono == raw.phone
    ensures r.cargo == raw.position && r.relacion == raw.situationRelation
    ensures r.fechaIncidente == raw.fechaIncidente && r.fechaInicialIncidente == raw.fechaIncidenteInicial
      && r.fechaFinalIncidente == raw.fechaIncidenteFinal
  {
    Report(
      raw.id, raw.fecha, raw.fechaIncidente, raw.fechaIncidenteInicial, raw.fechaIncidenteFinal,
      raw.name, raw.email, raw.phone, raw.company, raw.position, raw.situationRelation,
      raw.area, raw.puntoVenta, raw.tipo, raw.asunto, raw.mensaje,
      raw.anonymous == Str("true") || raw.anonymous == Bool(true),
      if raw.attachmentUrls.Some? && raw.attachmentUrls != Some(Text("")) then raw.attachmentUrls.value else Names([]),
      Or(raw.estado, DefaultEstado),
      raw.createdAt)
  }

  /** A row that arrives without a status is counted as pending. */
  lemma MissingStatusCountsAsPending(raw: RawReport)
    requires !Truthy(raw.estado)
    ensures UpdateMetrics([MapReport(raw)]) == Metrics(1, 1, 0)
  {
  }

  /**
   A row flagged 'true' or true is exported redacted whatever identity it
   carries; any other flag value (1, "1", "si", false) exports the name.
   */
  lemma AnonymousFlagDecidesRedaction(raw: RawReport, name: Option<string>, email: Option<string>, phone: Option<string>)
    ensures raw.anonymous == Str("true") || raw.anonymous == Bool(true) ==>
      ToSheetRow(MapReport(raw)) == ToSheetRow(MapReport(raw.(name := name, email := email, phone := phone)))
      && ToSheetRow(MapReport(raw)).nombre == Redacted
    ensures raw.anonymous != Str("true") && raw.anonymous != Bool(true) && Truthy(raw.name) ==>
      ToSheetRow(MapReport(raw)).nombre == raw.name.value
  {
  }

  // ---------------------------------------------------------------------
  // Filtering
  // ---------------------------------------------------------------------

  /** The values of the six filter controls; "" means the control is unset. */
  datatype Criteria = Criteria(
    tipo: string, empresa: string, area: string, puntoVenta: string, periodo: string, search: string)

  /** The three relative lower bounds, as day numbers computed from "now" by the caller. */
  datatype Cutoffs = Cutoffs(lastMonth: int, last3Months: int, lastYear: int)

  /** The lower bound a period value selects; any other value selects none. */
  function PeriodCutoff(periodo: string, cut: Cutoffs): Option<int> {
    if periodo == "ultimo_mes" then Some(cut.lastMonth)
    else if periodo == "ultimos_3_meses" then Some(cut.last3Months)
    else if periodo == "ultimo_ano" then Some(cut.lastYear)
    else None
  }

  /** `new Date(date) < cutoff`; an invalid date (NaN) compares false. */
  predicate BeforeCutoff(date: DateValue, cutoff: int) {
    TimeValue(date).Some? && TimeValue(date).value < cutoff
  }

  // The declarative reading of the filter: one clause per control, all conjoined.

  ghost predicate FieldMatches(criterion: string, field: Option<string>) {
    criterion == "" || field == Some(criterion)
  }

  ghost predicate WithinPeriod(periodo: string, cut: Cutoffs, date: DateValue) {
    forall k :: PeriodCutoff(periodo, cut) == Some(k) ==> !BeforeCutoff(date, k)
  }

  ghost predicate MentionsTerm(text: Option<string>, term: string) {
    exists k :: OccursAt(ToLower(Or(text, "")), term, k)
  }

  ghost predicate MatchesSearch(search: string, r: Report) {
    var term := ToLower(search);
    term == "" || MentionsTerm(r.asunto, term) || MentionsTerm(r.mensaje, term)
  }

  ghost predicate MeetsCriteria(c: Criteria, cut: Cutoffs, r: Report) {
    && FieldMatches(c.tipo, r.tipo)
    && FieldMatches(c.empresa, r.empresa)
    && FieldMatches(c.area, r.area)
    && FieldMatches(c.puntoVenta, r.puntoVenta)
    && WithinPeriod(c.periodo, cut, r.fechaReporte)
    && MatchesSearch(c.search, r)
  }

  /**
   The callback `applyFilters` hands to `Array.prototype.filter`, check by
   check in the source's order, each failing check returning false at once.
   */
  function Survives(c: Criteria, cut: Cutoffs, r: Report): (keep: bool)
    ensures keep <==> MeetsCriteria(c, cut, r)
  {
    var term := ToLower(c.search);
    if c.tipo != "" && r.tipo != Some(c.tipo) then false
    else if c.empresa != "" && r.empresa != Some(c.empresa) then false
    else if c.area != "" && r.area != Some(c.area) then false
    else if c.puntoVenta != "" && r.puntoVenta != Some(c.puntoVenta) then false
    else if c.periodo != "" && PeriodCutoff(c.periodo, cut).Some?
      && BeforeCutoff(r.fechaReporte, PeriodCutoff(c.periodo, cut).value) then false
    else if term != ""
      && !Includes(ToLower(Or(r.asunto, "")), term)
      && !Includes(ToLower(Or(r.mensaje, "")), term) then false
    else true
  }

  /** `xs` can be obtained from `ys` by deleting elements. */
  ghost predicate Subsequence<T>(xs: seq<T>, ys: seq<T>)
    decreases |ys|
  {
    |xs| == 0 || (|ys| > 0 && ((xs[0] == ys[0] && Subsequence(xs[1..], ys[1..])) || Subsequence(xs, ys[1..])))
  }

  /** `filteredReports = allReports.filter(...)`. */
  function ApplyFilters(reports: seq<Report>, c: Criteria, cut: Cutoffs): (out: seq<Report>)
    ensures |out| <= |reports|
    ensures Subsequence(out, reports)
    ensures forall r :: r in out <==> r in reports && MeetsCriteria(c, cut, r)
  {
    if |reports| == 0 then []
    else
      var rest := ApplyFilters(reports[1..], c, cut);
      assert forall r :: r in reports <==> r == reports[0] || r in reports[1..];
      if Survives(c, cut, reports[0]) then [reports[0]] + rest else rest
  }

  /** Every report that meets the criteria is kept as many times as it occurs; no copy is dropped. */
  lemma {:induction false} ApplyFiltersKeepsEveryCopy(reports: seq<Report>, c: Criteria, cut: Cutoffs)
    ensures forall r :: multiset(ApplyFilters(reports, c, cut))[r] == if MeetsCriteria(c, cut, r) then multiset(reports)[r] else 0
  {
    if |reports| > 0 {
      var tail := reports[1..];
      ApplyFiltersKeepsEveryCopy(tail, c, cut);
      assert reports == [reports[0]] + tail;
      assert multiset(reports) == multiset{reports[0]} + multiset(tail);
      var rest := ApplyFilters(tail, c, cut);
      assert multiset([reports[0]] + rest) == multiset{reports[0]} + multiset(rest);
    }
  }

  /** With every control unset the filter keeps the whole list, in order. */
  lemma {:induction false} NoCriteriaKeepsEverything(reports: seq<Report>, cut: Cutoffs)
    ensures ApplyFilters(reports, Criteria("", "", "", "", "", ""), cut) == reports
  {
    if |reports| > 0 {
      NoCriteriaKeepsEverything(reports[1..], cut);
      assert Survives(Criteria("", "", "", "", "", ""), cut, reports[0]);
      assert [reports[0]] + reports[1..] == reports;
    }
  }

  /** Filtering an already filtered list with the same controls changes nothing. */
  lemma {:induction false} ApplyFiltersIdempotent(reports: seq<Report>, c: Criteria, cut: Cutoffs)
    ensures ApplyFilters(ApplyFilters(reports, c, cut), c, cut) == ApplyFilters(reports, c, cut)
  {
    if |reports| > 0 {
      ApplyFiltersIdempotent(reports[1..], c, cut);
      var rest := ApplyFilters(reports[1..], c, cut);
      if Survives(c, cut, reports[0]) {
        assert ([reports[0]] + rest)[1..] == rest;
      }
    }
  }

  /** A period value other than the three known ones never removes a report. */
  lemma UnknownPeriodImposesNothing(c: Criteria, cut: Cutoffs, r: Report)
    requires c.periodo != "ultimo_mes" && c.periodo != "ultimos_3_meses" && c.periodo != "ultimo_ano"
    ensures Survives(c, cut, r) <==> Survives(c.(periodo := ""), cut, r)
  {
  }

  /** The period bound is inclusive: a report dated exactly on the cutoff survives it. */
  lemma PeriodBoundIsInclusive(c: Criteria, cut: Cutoffs, r: Report)
    requires c.periodo == "ultimo_mes" && r.fechaReporte == OnDay(cut.lastMonth)
    ensures Survives(c, cut, r) <==> Survives(c.(periodo := ""), cut, r)
  {
  }

  // ---------------------------------------------------------------------
  // Metrics
  // ---------------------------------------------------------------------

  const PendingStates: set<string> := {"pendiente", "en_revision"}
  const ResolvedStates: set<string> := {"resuelto", "cerrado"}

  /** How many reports carry a status from `states`. */
  function CountIn(rs: seq<Report>, states: set<string>): (n: nat)
    ensures n <= |rs|
    ensures n == |rs| <==> forall i :: 0 <= i < |rs| ==> rs[i].estado in states
    ensures n == 0 <==> forall i :: 0 <= i < |rs| ==> rs[i].estado !in states
    ensures |rs| == 1 ==> (n == 1 <==> rs[0].estado in states)
  {
    if |rs| == 0 then 0
    else
      var n := CountIn(rs[1..], states);
      assert forall i :: 1 <= i < |rs| ==> rs[i] == rs[1..][i - 1];
      (if rs[0].estado in states then 1 else 0) + n
  }

  /** Counting over a concatenation adds the counts of the parts. */
  lemma {:induction false} CountInConcat(a: seq<Report>, b: seq<Report>, states: set<string>)
    ensures CountIn(a + b, states) == CountIn(a, states) + CountIn(b, states)
  {
    if |a| > 0 {
      var ab := a + b;
      assert ab[0] == a[0] && ab[1..] == a[1..] + b;
      assert CountIn(ab, states) == (if a[0].estado in states then 1 else 0) + CountIn(a[1..] + b, states);
      CountInConcat(a[1..], b, states);
    } else {
      assert a + b == b;
    }
  }

  lemma {:induction false} CountInDisjointUnion(rs: seq<Report>, a: set<string>, b: set<string>)
    requires a !! b
    ensures CountIn(rs, a) + CountIn(rs, b) == CountIn(rs, a + b)
  {
    if |rs| > 0 {
      CountInDisjointUnion(rs[1..], a, b);
    }
  }

  datatype Metrics = Metrics(total: nat, pending: nat, resolved: nat)

  /** The three counters `updateMetrics` shows for the filtered list. */
  function UpdateMetrics(filtered: seq<Report>): (m: Metrics)
    ensures m.total == |filtered|
    ensures m.pending + m.resolved <= m.total
    ensures m.pending == 0 <==> forall i :: 0 <= i < |filtered| ==> filtered[i].estado !in PendingStates
    ensures m.resolved == 0 <==> forall i :: 0 <= i < |filtered| ==> filtered[i].estado !in ResolvedStates
    ensures m.pending == CountIn(filtered, PendingStates) && m.resolved == CountIn(filtered, ResolvedStates)
  {
    CountInDisjointUnion(filtered, PendingStates, ResolvedStates);
    Metrics(|filtered|, CountIn(filtered, PendingStates), CountIn(filtered, ResolvedStates))
  }

  // ---------------------------------------------------------------------
  // Labels and truncation
  // ---------------------------------------------------------------------

  const TipoLabels: map<string, string> := map[
    "acoso" := "Acoso",
    "conflicto_interes" := "Conflicto de Interes",
    "corrupcion" := "Corrupcion",
    "discriminacion" := "Discriminacion",
    "fraude" := "Fraude",
    "incumplimiento_normas" := "Incumplimiento de Normas",
    "mal_uso_recursos" := "Mal Uso de Recursos",
    "nepotismo" := "Nepotismo",
    "otro" := "Otro"]

  const EstadoLabels: map<string, string> := map[
    "pendiente" := "Pendiente",
    "en_revision" := "En Revision",
    "resuelto" := "Resuelto",
    "cerrado" := "Cerrado"]

  /** `table[key] || key`: a known key shows its label, anything else shows itself. */
  function Label(table: map<string, string>, key: string): (shown: string)
    requires forall k :: k in table ==> table[k] != ""
    ensures key in table ==> shown == table[key]
    ensures key !in table ==> shown == key
  {
    if key in table then table[key] else key
  }

  function FormatTipo(tipo: string): string {
    Label(TipoLabels, tipo)
  }

  function FormatEstado(estado: string): string {
    Label(EstadoLabels, estado)
  }

  /** Distinct report types get distinct labels, and a label never reads as a raw key. */
  lemma TipoLabelsDistinguish(a: string, b: string)
    requires a in TipoLabels && b in TipoLabels && a != b
    ensures FormatTipo(a) != FormatTipo(b)
    ensures FormatTipo(a) !in TipoLabels
  {
  }

  /** Distinct statuses get distinct labels. */
  lemma EstadoLabelsDistinguish(a: string, b: string)
    requires a in EstadoLabels && b in EstadoLabels && a != b
    ensures FormatEstado(a) != FormatEstado(b)
  {
  }

  /**
   `truncateText(text, maxLength)`: "" for "", the text itself when it fits,
   otherwise its first `maxLength` characters followed by "...".
   */
  function TruncateText(text: string, maxLength: int): (r: string)
    ensures text == "" ==> r == ""
    ensures |text| <= maxLength ==> r == text
    ensures text != "" && |text| > maxLength ==>
      var k := if maxLength < 0 then 0 else maxLength;
      |r| == k + 3 && r[..k] == text[..k] && r[k..] == "..."
    ensures maxLength >= 0 ==> |r| <= maxLength + 3
  {
    if text == "" then ""
    else if |text| > maxLength then text[..if maxLength < 0 then 0 else maxLength] + "..."
    else text
  }

  /** A truncated cell read back with room for the ellipsis is shown as it is. */
  lemma TruncateTextStable(text: string, maxLength: nat)
    ensures TruncateText(TruncateText(text, maxLength), maxLength + 3) == TruncateText(text, maxLength)
  {
  }

  /** Truncation keeps the text's first `maxLength` characters, whichever branch is taken. */
  lemma TruncateTextKeepsPrefix(text: string, maxLength: nat)
    requires maxLength <= |text|
    ensures TruncateText(text, maxLength)[..maxLength] == text[..maxLength]
  {
  }

  // ---------------------------------------------------------------------
  // Status edit
  // ---------------------------------------------------------------------

  /** The statuses `editReport` accepts from the prompt. */
  const AllowedStates: seq<string> := ["pendiente", "en_revision", "resuelto", "cerrado"]

  /** `allReports.find(r => r.id === id)`, as an index. */
  function FindById(reports: seq<Report>, id: int): (i: Option<nat>)
    ensures i.Some? ==> i.value < |reports| && reports[i.value].id == id
    ensures i.Some? ==> forall j :: 0 <= j < i.value ==> reports[j].id != id
    ensures i.None? <==> forall j :: 0 <= j < |reports| ==> reports[j].id != id
  {
    if |reports| == 0 then None
    else if reports[0].id == id then Some(0)
    else match FindById(reports[1..], id)
      case None =>
        assert forall j :: 1 <= j < |reports| ==> reports[j] == reports[1..][j - 1];
        None
      case Some(k) =>
        assert forall j :: 1 <= j <= k ==> reports[j] == reports[1..][j - 1];
        Some(k + 1)
  }

  datatype Notice = NotFound | NoChange | Updated

  datatype EditResult = EditResult(reports: seq<Report>, notice: Notice)

  /**
   `editReport(id)` with the prompt's answer (None when the prompt is
   cancelled): only an allowed status replaces the found report's status.
   */
  function EditReport(reports: seq<Report>, id: int, answer: Option<string>): (r: EditResult)
    ensures |r.reports| == |reports|
    ensures r.notice == NotFound <==> forall j :: 0 <= j < |reports| ==> reports[j].id != id
    ensures r.notice == Updated <==>
      (exists j :: 0 <= j < |reports| && reports[j].id == id) && answer.Some? && answer.value in AllowedStates
    ensures r.notice != Updated ==> r.reports == reports
    ensures r.notice == Updated ==>
      var i := FindById(reports, id).value;
      && r.reports[i] == reports[i].(estado := answer.value)
      && forall j :: 0 <= j < |reports| && j != i ==> r.reports[j] == reports[j]
  {
    match FindById(reports, id)
    case None => EditResult(reports, NotFound)
    case Some(i) =>
      if Truthy(answer) && answer.value in AllowedStates then
        EditResult(reports[i := reports[i].(estado := answer.value)], Updated)
      else
        EditResult(reports, NoChange)
  }

  /** After an update, looking the report up again finds it at the same place with the new status. */
  lemma EditIsVisibleOnLookup(reports: seq<Report>, id: int, answer: Option<string>)
    requires EditReport(reports, id, answer).notice == Updated
    ensures var after := EditReport(reports, id, answer).reports;
      && FindById(after, id) == FindById(reports, id)
      && after[FindById(after, id).value].estado == answer.value
  {
    var after := EditReport(reports, id, answer).reports;
    var i := FindById(reports, id).value;
    var k := FindById(after, id);
    assert after[i].id == id;
    assert k.Some?;
    assert k.value == i;
  }

  // `filteredReports` holds the very objects of `allReports`, and `editReport`
  // assigns `report.estado` in place before redrawing without re-filtering.
  // The filtered view is therefore modelled as positions into `allReports`.

  /** The positions, from `from` on, whose report the filter keeps, in increasing order. */
  function FilterRefs(reports: seq<Report>, c: Criteria, cut: Cutoffs, from: nat): (refs: seq<nat>)
    requires from <= |reports|
    ensures forall j :: 0 <= j < |refs| ==> from <= refs[j] < |reports|
    ensures forall j, k :: 0 <= j < k < |refs| ==> refs[j] < refs[k]
    ensures forall k :: from <= k < |reports| ==> (k in refs <==> MeetsCriteria(c, cut, reports[k]))
    decreases |reports| - from
  {
    if from == |reports| then []
    else
      var rest := FilterRefs(reports, c, cut, from + 1);
      if Survives(c, cut, reports[from]) then [from] + rest else rest
  }

  /** The reports the positions designate, as the redrawn table and counters read them. */
  function Deref(reports: seq<Report>, refs: seq<nat>): (view: seq<Report>)
    requires forall j :: 0 <= j < |refs| ==> refs[j] < |reports|
    ensures |view| == |refs|
    ensures forall j :: 0 <= j < |refs| ==> view[j] == reports[refs[j]]
  {
    seq(|refs|, j requires 0 <= j < |refs| => reports[refs[j]])
  }

  /** Reading the kept positions gives what `ApplyFilters` returns. */
  lemma {:induction false} DerefFilterRefs(reports: seq<Report>, c: Criteria, cut: Cutoffs, from: nat)
    requires from <= |reports|
    ensures Deref(reports, FilterRefs(reports, c, cut, from)) == ApplyFilters(reports[from..], c, cut)
    decreases |reports| - from
  {
    if from < |reports| {
      var tail := reports[from..];
      assert tail[0] == reports[from] && tail[1..] == reports[from + 1..];
      var rest := FilterRefs(reports, c, cut, from + 1);
      DerefFilterRefs(reports, c, cut, from + 1);
      DerefCons(reports, from, rest);
    }
  }

  lemma DerefCons(reports: seq<Report>, k: nat, refs: seq<nat>)
    requires k < |reports| && forall j :: 0 <= j < |refs| ==> refs[j] < |reports|
    ensures Deref(reports, [k] + refs) == [reports[k]] + Deref(reports, refs)
  {
  }

  /** The filter never looks at the status. */
  lemma SurvivesIgnoresEstado(c: Criteria, cut: Cutoffs, r: Report, estado: string)
    ensures Survives(c, cut, r.(estado := estado)) == Survives(c, cut, r)
  {
  }

  /** Lists that differ only in statuses keep the same positions. */
  lemma {:induction false} FilterRefsIgnoreEstado(a: seq<Report>, b: seq<Report>, c: Criteria, cut: Cutoffs, from: nat)
    requires |a| == |b| && from <= |a|
    requires forall k :: 0 <= k < |a| ==> b[k] == a[k].(estado := b[k].estado)
    ensures FilterRefs(a, c, cut, from) == FilterRefs(b, c, cut, from)
    decreases |a| - from
  {
    if from < |a| {
      FilterRefsIgnoreEstado(a, b, c, cut, from + 1);
      SurvivesIgnoresEstado(c, cut, a[from], b[from].estado);
    }
  }

  /**
   After `editReport`, the view redrawn from the old filtered objects is
   exactly what filtering the edited list afresh would give: the edit is
   visible in the table and the counters, and no report enters or leaves.
   */
  lemma EditKeepsFilteredViewCurrent(reports: seq<Report>, c: Criteria, cut: Cutoffs, id: int, answer: Option<string>)
    ensures var after := EditReport(reports, id, answer).reports;
      Deref(after, FilterRefs(reports, c, cut, 0)) == ApplyFilters(after, c, cut)
  {
    var after := EditReport(reports, id, answer).reports;
    FilterRefsIgnoreEstado(reports, after, c, cut, 0);
    DerefFilterRefs(after, c, cut, 0);
    assert after[0..] == after;
  }

  // ---------------------------------------------------------------------
  // Spreadsheet export
  // ---------------------------------------------------------------------

  /** A date cell: 'N/A', the text "Invalid Date", or the (locale-formatted) day. */
  datatype DateCell = NotAvailable | InvalidDate | Day(d: int)

  /** `formatDate`: a falsy value (unset, "", null) is 'N/A', anything else goes through `new Date`. */
  function DateCellOf(date: DateValue): (cell: DateCell)
    ensures cell.NotAvailable? <==> date.Unset? || date.NullDate?
    ensures cell.InvalidDate? <==> TimeValue(date).None? && date.Unparsable?
    ensures cell.Day? ==> TimeValue(date) == Some(cell.d)
  {
    match date
    case OnDay(day) => Day(day)
    case Unparsable => InvalidDate
    case _ => NotAvailable
  }

  /**
   A null report date takes part in the period filter as 1970-01-01, yet the
   export shows it as missing.
   */
  lemma NullDateFilteredAsEpochButExportedMissing(cutoff: int)
    ensures BeforeCutoff(NullDate, cutoff) <==> EpochDay < cutoff
    ensures DateCellOf(NullDate) == NotAvailable
    ensures !BeforeCutoff(Unset, cutoff) && !BeforeCutoff(Unparsable, cutoff)
  {
  }

  /** One row of the exported sheet, column by column. */
  datatype SheetRow = SheetRow(
    fechaReporte: DateCell,
    fechaIncidente: DateCell,
    fechaInicialIncidente: DateCell,
    fechaFinalIncidente: DateCell,
    nombre: string,
    email: string,
    telefono: string,
    empresa: string,
    cargo: string,
    relacion: string,
    area: string,
    puntoVenta: string,
    tipo: Option<string>,
    asunto: string,
    mensaje: string,
    anonimo: string,
    archivos: nat,
    estado: string)

  const Redacted := "Anonimo"
  const Missing := "N/A"

  /** The object literal `exportToExcel` builds for one report. */
  function ToSheetRow(r: Report): (row: SheetRow)
    ensures r.anonimo ==> row.nombre == Redacted && row.email == Redacted && row.telefono == Redacted
    ensures !r.anonimo ==>
      row.nombre == Or(r.nombre, Missing) && row.email == Or(r.email, Missing) && row.telefono == Or(r.telefono, Missing)
    ensures row.anonimo == (if r.anonimo then "Si" else "No")
    ensures row.archivos == AttachmentLength(r.archivos)
    ensures row.estado == FormatEstado(r.estado)
    ensures row.fechaReporte == DateCellOf(r.fechaReporte) && row.fechaIncidente == DateCellOf(r.fechaIncidente)
    ensures row.fechaInicialIncidente == DateCellOf(r.fechaInicialIncidente)
      && row.fechaFinalIncidente == DateCellOf(r.fechaFinalIncidente)
    ensures row.tipo == (if r.tipo.Some? then Some(FormatTipo(r.tipo.value)) else None)
    ensures row.empresa == Or(r.empresa, Missing) && row.cargo == Or(r.cargo, Missing)
      && row.relacion == Or(r.relacion, Missing) && row.area == Or(r.area, Missing)
      && row.puntoVenta == Or(r.puntoVenta, Missing)
    ensures row.asunto == Or(r.asunto, Missing) && row.mensaje == Or(r.mensaje, Missing)
  {
    SheetRow(
      DateCellOf(r.fechaReporte), DateCellOf(r.fechaIncidente),
      DateCellOf(r.fechaInicialIncidente), DateCellOf(r.fechaFinalIncidente),
      if r.anonimo then Redacted else Or(r.nombre, Missing),
      if r.anonimo then Redacted else Or(r.email, Missing),
      if r.anonimo then Redacted else Or(r.telefono, Missing),
      Or(r.empresa, Missing), Or(r.cargo, Missing), Or(r.relacion, Missing),
      Or(r.area, Missing), Or(r.puntoVenta, Missing),
      if r.tipo.Some? then Some(FormatTipo(r.tipo.value)) else None,
      Or(r.asunto, Missing), Or(r.mensaje, Missing),
      if r.anonimo then "Si" else "No",
      AttachmentLength(r.archivos),
      FormatEstado(r.estado))
  }

  /** The exported row of an anonymous report does not depend on its name, email or phone. */
  lemma AnonymousRowHidesIdentity(r: Report, nombre: Option<string>, email: Option<string>, telefono: Option<string>)
    requires r.anonimo
    ensures ToSheetRow(r) == ToSheetRow(r.(nombre := nombre, email := email, telefono := telefono))
  {
  }

  datatype Export = NoData | Sheet(rows: seq<SheetRow>)

  /** `exportToExcel`: refuses an empty list, otherwise one row per filtered report, in order. */
  function ExportToExcel(filtered: seq<Report>): (e: Export)
    ensures e == NoData <==> |filtered| == 0
    ensures e.Sheet? ==> |e.rows| == |filtered|
    ensures e.Sheet? ==> forall i :: 0 <= i < |filtered| ==> e.rows[i] == ToSheetRow(filtered[i])
    ensures e.Sheet? ==> forall i :: 0 <= i < |filtered| && filtered[i].anonimo ==>
      e.rows[i].nombre == Redacted && e.rows[i].email == Redacted && e.rows[i].telefono == Redacted
  {
    if |filtered| == 0 then NoData
    else Sheet(seq(|filtered|, i requires 0 <= i < |filtered| => ToSheetRow(filtered[i])))
  }
}

=== FILE: desktop_server.dfy ===
/**
 The alternate submission server: its `isConnected` flag as driven by
 `connectDB`, the pool's error event and connection failures during a
 submission, and its `/api/submit-report` handler (connection guard,
 explicit anonymity flag, JSON list of attachment URLs, returned id).
 */
module DesktopServer {
  import opened Js
  import JsonText

  // ---------------------------------------------------------------------
  // Connection state
  // ---------------------------------------------------------------------

  /**
   `pool` has been assigned; the value of `isConnected`; how many `connectDB`
   calls are waiting for `sql.connect` (running, or scheduled by the retry
   timer); how many are waiting for their `SELECT 1` probe; how many
   submissions have passed the connection guard and await their `INSERT`.
   */
  datatype Conn = Conn(hasPool: bool, connected: bool, connecting: nat, probing: nat, inserting: nat)

  /** The state once `app.listen` has called `connectDB`. */
  const Initial := Conn(false, false, 1, 0, 0)

  /**
   What can happen to the connection: `sql.connect` resolves (the error
   handler is attached and the probe starts) or throws (a retry is
   scheduled); the probe succeeds or throws (a retry is scheduled); the pool
   emits 'error'; a submission passes the connection guard and starts its
   `INSERT`; an `INSERT` settles, `lost` when it throws ENOTOPEN or
   ECONNCLOSED, in which case the catch calls `connectDB()` at once. Other
   events can happen between a submission's start and its settling.
   */
  datatype ConnEvent =
    | ConnectResolved | ConnectFailed | ProbeSucceeded | ProbeFailed | PoolError
    | InsertStarted | InsertSettled(lost: bool)

  /** The events after which the flag is down because something failed. */
  predicate IsFailure(e: ConnEvent) {
    e.ConnectFailed? || e.ProbeFailed? || e.PoolError? || e == InsertSettled(true)
  }

  /** Whether the event can happen in the state: each needs the call, pool or connection it comes from. */
  predicate Enabled(c: Conn, e: ConnEvent) {
    match e
    case ConnectResolved => c.connecting > 0
    case ConnectFailed => c.connecting > 0
    case ProbeSucceeded => c.probing > 0
    case ProbeFailed => c.probing > 0
    case PoolError => c.hasPool
    case InsertStarted => c.hasPool && c.connected
    case InsertSettled(_) => c.inserting > 0
  }

  /** The effect of each event on the pool, the flag and the pending calls, as `connectDB` and its handlers write them. */
  function NextAsWritten(c: Conn, e: ConnEvent): (d: Conn)
    requires Enabled(c, e)
    ensures d.connected <==> e == ConnectResolved || (c.connected && !IsFailure(e))
    ensures d.hasPool <==> c.hasPool || e == ConnectResolved
    ensures e == PoolError ==> d.connecting == c.connecting && d.probing == c.probing
    ensures e == InsertSettled(true) ==> d.connecting == c.connecting + 1
    ensures d.inserting == c.inserting + (if e == InsertStarted then 1 else 0) - (if e.InsertSettled? then 1 else 0)
  {
    match e
    case ConnectResolved => c.(hasPool := true, connected := true, connecting := c.connecting - 1, probing := c.probing + 1)
    case ConnectFailed => c.(connected := false)
    case ProbeSucceeded => c.(probing := c.probing - 1)
    case ProbeFailed => c.(connected := false, connecting := c.connecting + 1, probing := c.probing - 1)
    case PoolError => c.(connected := false)
    case InsertStarted => c.(inserting := c.inserting + 1)
    case InsertSettled(lost) =>
      if lost then c.(connected := false, connecting := c.connecting + 1, inserting := c.inserting - 1)
      else c.(inserting := c.inserting - 1)
  }

  /** The evidently intended handling: a pool error schedules a reconnect like every other failure. */
  function Next(c: Conn, e: ConnEvent): (d: Conn)
    requires Enabled(c, e)
    ensures d.connected <==> e == ConnectResolved || (c.connected && !IsFailure(e))
    ensures d.hasPool <==> c.hasPool || e == ConnectResolved
    ensures IsFailure(e) ==> !d.connected && d.connecting > 0
    ensures e != PoolError ==> d == NextAsWritten(c, e)
  {
    if e == PoolError then c.(connected := false, connecting := c.connecting + 1) else NextAsWritten(c, e)
  }

  /** A history each of whose events can happen where it occurs; `intended` selects the corrected pool-error handler. */
  predicate Valid(c: Conn, events: seq<ConnEvent>, intended: bool)
    decreases |events|
  {
    |events| == 0 || (Enabled(c, events[0]) && Valid(Step(c, events[0], intended), events[1..], intended))
  }

  function Step(c: Conn, e: ConnEvent, intended: bool): Conn
    requires Enabled(c, e)
  {
    if intended then Next(c, e) else NextAsWritten(c, e)
  }

  function Run(c: Conn, events: seq<ConnEvent>, intended: bool): Conn
    requires Valid(c, events, intended)
    decreases |events|
  {
    if |events| == 0 then c else Run(Step(c, events[0], intended), events[1..], intended)
  }

  /** The flag is down and no connect is pending. */
  predicate Idle(c: Conn) {
    !c.connected && c.connecting == 0 && c.probing == 0
  }

  /** Idle with no submission in flight: nothing left in the program can raise the flag. */
  predicate Stranded(c: Conn) {
    Idle(c) && c.inserting == 0
  }

  /** As written, a stranded server stays stranded whatever happens next. */
  lemma {:induction false} StrandedIsForever(c: Conn, events: seq<ConnEvent>)
    requires Stranded(c) && Valid(c, events, false)
    ensures Stranded(Run(c, events, false))
    decreases |events|
  {
    if |events| > 0 {
      StrandedIsForever(NextAsWritten(c, events[0]), events[1..]);
    }
  }

  /**
   As written, an idle server stays idle unless one of the submissions in
   flight settles with a connection-loss code: its catch is then the only
   call to `connectDB` left.
   */
  lemma {:induction false} OnlyInFlightLossLeavesIdle(c: Conn, events: seq<ConnEvent>)
    requires Idle(c) && Valid(c, events, false)
    requires forall i :: 0 <= i < |events| ==> events[i] != InsertSettled(true)
    ensures Idle(Run(c, events, false))
    ensures Run(c, events, false).inserting <= c.inserting
    decreases |events|
  {
    if |events| > 0 {
      var tail := events[1..];
      assert forall i :: 0 <= i < |tail| ==> tail[i] == events[i + 1];
      OnlyInFlightLossLeavesIdle(NextAsWritten(c, events[0]), tail);
    }
  }

  /** As written, an idle server with an `INSERT` in flight that settles with a loss code has a connect pending again. */
  lemma InFlightLossReconnects(c: Conn)
    requires Idle(c) && c.inserting > 0
    ensures !Idle(NextAsWritten(c, InsertSettled(true)))
    ensures NextAsWritten(c, InsertSettled(true)).connecting == 1
  {
  }

  /** A history one event longer: valid when its first event is enabled and the rest is valid after it. */
  lemma RunCons(c: Conn, e: ConnEvent, rest: seq<ConnEvent>, d: Conn, intended: bool)
    requires Enabled(c, e) && Step(c, e, intended) == d && Valid(d, rest, intended)
    ensures Valid(c, [e] + rest, intended) && Run(c, [e] + rest, intended) == Run(d, rest, intended)
  {
    assert ([e] + rest)[0] == e && ([e] + rest)[1..] == rest;
  }

  /** The end of that history: from a connected pool with its probe pending, the probe succeeds and the pool errs. */
  lemma ProbeThenPoolError(inFlight: nat)
    ensures Valid(Conn(true, true, 0, 1, inFlight), [ProbeSucceeded, PoolError], false)
    ensures Run(Conn(true, true, 0, 1, inFlight), [ProbeSucceeded, PoolError], false) == Conn(true, false, 0, 0, inFlight)
  {
    RunCons(Conn(true, true, 0, 0, inFlight), PoolError, [], Conn(true, false, 0, 0, inFlight), false);
    RunCons(Conn(true, true, 0, 1, inFlight), ProbeSucceeded, [PoolError], Conn(true, true, 0, 0, inFlight), false);
  }

  /**
   As written: from a state with one connect pending and nothing else (such as
   `Initial`), the connect resolves, its probe succeeds, then the pool emits
   'error' with no submission in flight, and the server is stranded.
   */
  lemma PoolErrorStrandsServer(c: Conn)
    requires c.connecting == 1 && c.probing == 0 && c.inserting == 0
    ensures Valid(c, [ConnectResolved, ProbeSucceeded, PoolError], false)
    ensures Stranded(Run(c, [ConnectResolved, ProbeSucceeded, PoolError], false))
  {
    ProbeThenPoolError(0);
    RunCons(c, ConnectResolved, [ProbeSucceeded, PoolError], Conn(true, true, 0, 1, 0), false);
  }

  /** What the intended handler keeps: a disconnected server always has a connect pending. */
  predicate Recovering(c: Conn) {
    !c.connected ==> c.connecting > 0
  }

  /** Intended: no history strands the server. */
  lemma {:induction false} IntendedNeverStrands(c: Conn, events: seq<ConnEvent>)
    requires Recovering(c) && Valid(c, events, true)
    ensures Recovering(Run(c, events, true))
    ensures !Stranded(Run(c, events, true))
    decreases |events|
  {
    if |events| > 0 {
      IntendedNeverStrands(Next(c, events[0]), events[1..]);
    }
  }

  /** In either handler, a connected server has seen a connect resolve and holds a pool. */
  lemma {:induction false} ConnectedOnlyAfterConnect(c: Conn, events: seq<ConnEvent>, intended: bool)
    requires Valid(c, events, intended)
    requires c.connected ==> c.hasPool
    ensures var d := Run(c, events, intended); d.connected ==> d.hasPool
    ensures var d := Run(c, events, intended); d.hasPool <==> c.hasPool || ConnectResolved in events
    ensures c == Initial && Run(c, events, intended).connected ==> ConnectResolved in events
    decreases |events|
  {
    if |events| > 0 {
      ConnectedOnlyAfterConnect(Step(c, events[0], intended), events[1..], intended);
      assert events == [events[0]] + events[1..];
    }
  }

  // ---------------------------------------------------------------------
  // Submission
  // ---------------------------------------------------------------------

  /** The body fields this handler destructures; None when not sent. */
  datatype DesktopBody = DesktopBody(
    name: Option<string>,
    email: Option<string>,
    phone: Option<string>,
    company: Option<string>,
    position: Option<string>,
    area: Option<string>,
    reportType: Option<string>,
    subject: Option<string>,
    message: Option<string>,
    anonymous: Option<string>,
    puntosVenta: Option<string>,
    incidentDate: Option<string>)

  /** The parameters bound into its `INSERT INTO feedback`; None is SQL NULL. */
  datatype InsertParams = InsertParams(
    id: string,
    name: Option<string>,
    email: Option<string>,
    phone: Option<string>,
    company: Option<string>,
    position: Option<string>,
    area: Option<string>,
    reportType: Option<string>,
    subject: Option<string>,
    message: Option<string>,
    anonymous: bool,
    attachmentUrls: string,
    puntosVenta: Option<string>,
    incidentDate: Option<string>)

  const UploadsPrefix := "/uploads/"

  /** `req.files.map(file => '/uploads/' + file.filename)`. */
  function UploadUrls(files: seq<string>): (urls: seq<string>)
    ensures |urls| == |files|
    ensures forall i :: 0 <= i < |files| ==> urls[i] == UploadsPrefix + files[i]
  {
    seq(|files|, i requires 0 <= i < |files| => UploadsPrefix + files[i])
  }

  /** The explicit flag: only the exact string "true" means anonymous. */
  predicate FlagSaysAnonymous(anonymous: Option<string>) {
    anonymous == Some("true")
  }

  /** The `.input(...)` chain, with `id` the fresh `uuidv4()`. */
  function BuildParams(body: DesktopBody, files: seq<string>, id: string): (p: InsertParams)
    ensures p.id == id
    ensures p.anonymous <==> body.anonymous == Some("true")
    ensures p.anonymous ==> p.name.None? && p.email.None? && p.phone.None?
    ensures !p.anonymous ==> p.name == body.name && p.email == body.email && p.phone == body.phone
    ensures JsonText.Parse(p.attachmentUrls) == Some(UploadUrls(files))
    ensures |files| == 0 ==> p.attachmentUrls == "[]"
    ensures p.company == body.company && p.position == body.position && p.area == body.area
    ensures p.reportType == body.reportType && p.subject == body.subject && p.message == body.message
    ensures p.puntosVenta == body.puntosVenta
    ensures p.incidentDate.Some? ==> p.incidentDate == body.incidentDate && p.incidentDate.value != ""
    ensures Truthy(body.incidentDate) ==> p.incidentDate == body.incidentDate
  {
    var anon := FlagSaysAnonymous(body.anonymous);
    var urls := UploadUrls(files);
    JsonText.ParseStringify(urls);
    InsertParams(
      id,
      if anon then None else body.name,
      if anon then None else body.email,
      if anon then None else body.phone,
      body.company, body.position, body.area, body.reportType, body.subject, body.message,
      anon,
      JsonText.Stringify(urls),
      body.puntosVenta,
      OrNull(body.incidentDate))
  }

  /** Any other value of the flag, "on", "TRUE" or " true" included, keeps the identity fields. */
  lemma OnlyExactTrueHidesIdentity(body: DesktopBody, files: seq<string>, id: string)
    requires body.anonymous != Some("true")
    ensures var p := BuildParams(body, files, id);
      !p.anonymous && p.name == body.name && p.email == body.email && p.phone == body.phone
  {
  }

  /** How the `INSERT` settles: it succeeds, or throws an error with this `code`. */
  datatype InsertResult = InsertOk | InsertError(code: string)

  datatype Reply = Reply(status: nat, success: bool, message: string, reportId: Option<string>)

  datatype DesktopOutcome = DesktopOutcome(reply: Reply, inserted: Option<InsertParams>, conn: Conn)

  const NoConnectionMessage := "Error de conexión a la base de datos. Intente nuevamente."
  const InternalErrorMessage := "Error interno del servidor"
  const SubmitOkMessage := "Reporte enviado exitosamente"

  /** The error codes after which the handler marks the connection lost and reconnects. */
  predicate IsConnectionLoss(code: string) {
    code == "ENOTOPEN" || code == "ECONNCLOSED"
  }

  /**
   The end of a submission whose `INSERT` started in `c`: the reply follows
   from how the `INSERT` settles alone, and the catch lowers the flag and calls
   `connectDB()` on a loss code whatever the flag is by then.
   */
  function Settle(c: Conn, p: InsertParams, db: InsertResult): (out: DesktopOutcome)
    requires c.inserting > 0
    ensures out.reply.success <==> db.InsertOk?
    ensures out.reply.success <==> out.inserted == Some(p)
    ensures out.reply.success ==> out.reply.status == 200 && out.reply.reportId == Some(p.id)
    ensures !out.reply.success ==>
      out.reply == Reply(500, false, InternalErrorMessage, None) && out.inserted.None?
    ensures out.conn.inserting == c.inserting - 1
    ensures out.conn.connected <==> c.connected && !(db.InsertError? && IsConnectionLoss(db.code))
    ensures out.conn.connecting == c.connecting + (if db.InsertError? && IsConnectionLoss(db.code) then 1 else 0)
    ensures out.conn.hasPool == c.hasPool && out.conn.probing == c.probing
  {
    match db
    case InsertOk => DesktopOutcome(Reply(200, true, SubmitOkMessage, Some(p.id)), Some(p), NextAsWritten(c, InsertSettled(false)))
    case InsertError(code) =>
      DesktopOutcome(Reply(500, false, InternalErrorMessage, None), None, NextAsWritten(c, InsertSettled(IsConnectionLoss(code))))
  }

  /**
   `POST /api/submit-report` of this server, given the state of the
   connection and a fresh id, when no connection event falls between its
   guard and the settling of its `INSERT`.
   */
  function Submit(c: Conn, body: DesktopBody, files: seq<string>, newId: string, db: InsertResult): (out: DesktopOutcome)
    ensures !(c.hasPool && c.connected) ==>
      out.reply == Reply(500, false, NoConnectionMessage, None) && out.inserted.None? && out.conn == c
    ensures out.reply.success <==> c.hasPool && c.connected && db.InsertOk?
    ensures out.reply.success <==> out.inserted.Some?
    ensures out.reply.success ==>
      out.reply.status == 200 && out.inserted == Some(BuildParams(body, files, newId))
      && out.reply.reportId == Some(out.inserted.value.id) && out.reply.reportId == Some(newId)
    ensures !out.reply.success ==> out.reply.status == 500 && out.reply.reportId.None?
    ensures c.hasPool && c.connected && db.InsertError? ==> out.reply.message == InternalErrorMessage
    ensures out.conn.hasPool == c.hasPool
    ensures out.conn.connected <==> c.connected && !(c.hasPool && db.InsertError? && IsConnectionLoss(db.code))
    ensures out.conn.connecting == c.connecting + (if c.hasPool && c.connected && db.InsertError? && IsConnectionLoss(db.code) then 1 else 0)
    ensures out.conn.probing == c.probing && out.conn.inserting == c.inserting
  {
    if !c.hasPool || !c.connected then
      DesktopOutcome(Reply(500, false, NoConnectionMessage, None), None, c)
    else
      Settle(NextAsWritten(c, InsertStarted), BuildParams(body, files, newId), db)
  }

  /**
   As written, from one pending connect (such as `Initial`): the connect
   resolves, a submission passes the guard, the probe succeeds and the pool
   emits 'error'. The submission still in flight then reconnects if its
   `INSERT` fails with a loss code, and the server is not stranded; had it
   succeeded, the server would be.
   */
  lemma InFlightInsertDecidesStranding(c: Conn, p: InsertParams, code: string)
    requires c.connecting == 1 && c.probing == 0 && c.inserting == 0
    requires IsConnectionLoss(code)
    ensures Valid(c, [ConnectResolved, InsertStarted, ProbeSucceeded, PoolError], false)
    ensures var started := Run(c, [ConnectResolved, InsertStarted, ProbeSucceeded, PoolError], false);
      started.inserting == 1 && Idle(started)
      && !Stranded(Settle(started, p, InsertError(code)).conn)
      && Settle(started, p, InsertError(code)).conn.connecting == 1
      && Stranded(Settle(started, p, InsertOk).conn)
  {
    SubmissionBeforePoolError(c);
  }

  /** The history of that lemma: it leaves the flag down, nothing pending and one submission in flight. */
  lemma SubmissionBeforePoolError(c: Conn)
    requires c.connecting == 1 && c.probing == 0 && c.inserting == 0
    ensures Valid(c, [ConnectResolved, InsertStarted, ProbeSucceeded, PoolError], false)
    ensures Run(c, [ConnectResolved, InsertStarted, ProbeSucceeded, PoolError], false) == Conn(true, false, 0, 0, 1)
  {
    ProbeThenPoolError(1);
    RunCons(Conn(true, true, 0, 1, 0), InsertStarted, [ProbeSucceeded, PoolError], Conn(true, true, 0, 1, 1), false);
    RunCons(c, ConnectResolved, [InsertStarted, ProbeSucceeded, PoolError], Conn(true, true, 0, 1, 0), false);
  }

  /** Once a submission has lost the connection, the next one is refused by the guard until a connect succeeds. */
  lemma LostConnectionRefusesNextSubmit(
    c: Conn, body: DesktopBody, files: seq<string>, id: string, code: string,
    body2: DesktopBody, files2: seq<string>, id2: string, db2: InsertResult)
    requires c.hasPool && c.connected && IsConnectionLoss(code)
    ensures var after := Submit(c, body, files, id, InsertError(code)).conn;
      Submit(after, body2, files2, id2, db2).reply.message == NoConnectionMessage
      && Submit(after, body2, files2, id2, db2).inserted.None?
  {
  }

  /**
   As written, once the server is stranded (for instance by a pool error after
   a successful probe, with no submission in flight) every later submission
   is refused by the guard, whatever the connection events in between.
   */
  lemma StrandedRefusesEverySubmit(
    c: Conn, events: seq<ConnEvent>, body: DesktopBody, files: seq<string>, id: string, db: InsertResult)
    requires Stranded(c) && Valid(c, events, false)
    ensures var out := Submit(Run(c, events, false), body, files, id, db);
      out.reply == Reply(500, false, NoConnectionMessage, None) && out.inserted.None?
  {
    StrandedIsForever(c, events);
  }
}

=== FILE: form_script.dfy ===
/**
 The intake form's client-side rules: the admin login validators, the
 point-of-sale field's enablement and value reset, the authorisation PDF
 lookup, anonymous mode, the single-date/date-range fields and the
 attachment size gate that runs before submission.
 */
module FormScript {
  import opened Js
  import Upload
  import Server

  // ---------------------------------------------------------------------
  // Admin login validators
  // ---------------------------------------------------------------------

  /** No whitespace and no '@': a run of `[^\s@]`. */
  predicate Plain(s: string) {
    forall i :: 0 <= i < |s| ==> !IsSpace(s[i]) && s[i] != '@'
  }

  /** The whole string matches `^[^\s@]+@[^\s@]+\.[^\s@]+$`, stated with witnesses for '@' and '.'. */
  ghost predicate EmailPattern(v: string) {
    exists at: nat, dot: nat :: at < |v| && dot < |v| && EmailSplit(v, at, dot)
  }

  ghost predicate EmailSplit(v: string, at: nat, dot: nat)
    requires at < |v| && dot < |v|
  {
    && 0 < at && at + 1 < dot && dot + 1 < |v|
    && v[at] == '@' && v[dot] == '.'
    && Plain(v[..at]) && Plain(v[at + 1..dot]) && Plain(v[dot + 1..])
  }

  /** `emailRegex.test(v)`, decided by locating the single '@' and a '.' strictly inside the domain. */
  function MatchesEmail(v: string): (b: bool)
    ensures b <==> EmailPattern(v)
  {
    match IndexOf(v, '@')
    case None => false
    case Some(at) =>
      var domain := v[at + 1..];
      if at > 0 && Plain(v[..at]) && |domain| >= 3 && Plain(domain) && '.' in domain[1..|domain| - 1] then
        EmailPatternFromParts(v, at);
        true
      else
        NoEmailPatternWithoutParts(v, at);
        false
  }

  lemma EmailPatternFromParts(v: string, at: nat)
    requires at < |v| && v[at] == '@' && at > 0 && Plain(v[..at])
    requires |v[at + 1..]| >= 3 && Plain(v[at + 1..])
    requires '.' in v[at + 1..][1..|v[at + 1..]| - 1]
    ensures EmailPattern(v)
  {
    var domain := v[at + 1..];
    var inner := domain[1..|domain| - 1];
    var d :| 0 <= d < |inner| && inner[d] == '.';
    var dot := at + 2 + d;
    assert v[dot] == '.';
    assert v[at + 1..dot] == domain[..d + 1];
    assert v[dot + 1..] == domain[d + 2..];
    assert Plain(domain[..d + 1]) && Plain(domain[d + 2..]);
    assert EmailSplit(v, at, dot);
  }

  /** The '@' that opens a match is the first '@' of the string. */
  lemma FirstAtIsUnique(v: string, a: nat, b: nat)
    requires a < |v| && b < |v| && v[a] == '@' && v[b] == '@'
    requires '@' !in v[..a] && '@' !in v[..b]
    ensures a == b
  {
    assert forall j :: 0 <= j < a ==> v[..a][j] == v[j];
    assert forall j :: 0 <= j < b ==> v[..b][j] == v[j];
  }

  /** What a match tells about the parts on either side of its '@'. */
  lemma EmailSplitGivesParts(v: string, a: nat, dot: nat)
    requires a < |v| && dot < |v| && EmailSplit(v, a, dot)
    ensures '@' !in v[..a]
    ensures a > 0 && |v[a + 1..]| >= 3 && Plain(v[a + 1..])
    ensures '.' in v[a + 1..][1..|v[a + 1..]| - 1]
  {
    var domain := v[a + 1..];
    assert domain == v[a + 1..dot] + ['.'] + v[dot + 1..];
    forall i | 0 <= i < |domain| ensures !IsSpace(domain[i]) && domain[i] != '@' {
      if i < dot - a - 1 {
        assert domain[i] == v[a + 1..dot][i];
      } else if i > dot - a - 1 {
        assert domain[i] == v[dot + 1..][i - (dot - a)];
      }
    }
    assert domain[1..|domain| - 1][dot - a - 2] == '.';
  }

  lemma NoEmailPatternWithoutParts(v: string, at: nat)
    requires at < |v| && v[at] == '@' && '@' !in v[..at]
    requires !(at > 0 && Plain(v[..at]) && |v[at + 1..]| >= 3 && Plain(v[at + 1..])
               && '.' in v[at + 1..][1..|v[at + 1..]| - 1])
    ensures !EmailPattern(v)
  {
    forall a: nat, dot: nat | a < |v| && dot < |v| && EmailSplit(v, a, dot) ensures false {
      EmailSplitGivesParts(v, a, dot);
      FirstAtIsUnique(v, a, at);
    }
  }

  datatype FieldCheck = Valid | Required(message: string) | Invalid(message: string)

  /** `validateEmailField`: the trimmed value must be present and match the pattern. */
  function ValidateEmail(raw: string): (c: FieldCheck)
    ensures c.Required? <==> AllSpace(raw)
    ensures c.Required? ==> c.message == "El usuario es requerido"
    ensures c.Valid? <==> EmailPattern(Trim(raw))
    ensures c.Invalid? ==> c.message == "Ingrese un email válido"
  {
    var v := Trim(raw);
    if v == "" then
      assert !EmailPattern(v);
      Required("El usuario es requerido")
    else if !MatchesEmail(v) then Invalid("Ingrese un email válido")
    else Valid
  }

  /** The shortest password the form lets through. */
  const MinPasswordLength := 6

  /** `validatePasswordField`: the untrimmed value must be at least six characters long. */
  function ValidatePassword(v: string): (c: FieldCheck)
    ensures c.Valid? <==> |v| >= MinPasswordLength
    ensures c.Required? <==> v == ""
    ensures c.Required? ==> c.message == "La contraseña es requerida"
    ensures c.Invalid? ==> c.message == "La contraseña debe tener al menos 6 caracteres"
  {
    if v == "" then Required("La contraseña es requerida")
    else if |v| < MinPasswordLength then Invalid("La contraseña debe tener al menos 6 caracteres")
    else Valid
  }

  /** The admin form's submit handler: the JSON body it posts, or None when a validator blocks it. */
  function AdminLoginRequest(username: string, password: string): (req: Option<(string, string)>)
    ensures req.Some? <==> ValidateEmail(username).Valid? && ValidatePassword(password).Valid?
    ensures req.Some? ==> req.value == (Trim(username), password)
  {
    if ValidateEmail(username).Valid? && ValidatePassword(password).Valid? then Some((Trim(username), password))
    else None
  }

  /** A request the form lets through never draws the server's 400 "Email y contraseña son requeridos". */
  lemma AdminRequestPassesServerCheck(
    username: string, password: string, users: seq<Server.UserRow>,
    checkPassword: (string, string) -> bool, db: Server.LoginDb, now: int, session: Option<Server.SessionUser>)
    requires AdminLoginRequest(username, password).Some?
    ensures var (e, p) := AdminLoginRequest(username, password).value;
      Server.Login(users, Some(e), Some(p), checkPassword, db, now, session).status != 400
  {
    var (e, p) := AdminLoginRequest(username, password).value;
    assert !AllSpace(username);
    assert e != "";
  }

  // ---------------------------------------------------------------------
  // Point of sale and the authorisation PDF
  // ---------------------------------------------------------------------

  /** `empresasConPuntosVenta`. */
  const PosCompanies: seq<string> := [
    "Centromotos", "Distrimotos", "Credimotos", "Credimovil", "Motomovil",
    "Sabanamotos", "Motocredito", "Motos Del Aburra", "Fintotal",
    "Motoracing", "Motos Del Darien"]

  /** The only area for which the point-of-sale field can be enabled. */
  const PosArea := "comercial_venta_posventa"

  /** An `<option>` of the point-of-sale select: its value and its `data-empresa`. */
  datatype PosOption = PosOption(value: string, empresa: Option<string>)

  /** The select after `handlePuntosVentaActivation`: enabled flag, value, and which options show. */
  datatype PosField = PosField(enabled: bool, value: string, visible: seq<bool>)

  /** `querySelector('option[value="v"]')`: the first option with that value. */
  function FirstOptionWithValue(options: seq<PosOption>, v: string): (i: Option<nat>)
    ensures i.Some? ==> i.value < |options| && options[i.value].value == v
    ensures i.Some? ==> forall j :: 0 <= j < i.value ==> options[j].value != v
    ensures i.None? <==> forall j :: 0 <= j < |options| ==> options[j].value != v
  {
    if |options| == 0 then None
    else if options[0].value == v then Some(0)
    else match FirstOptionWithValue(options[1..], v)
      case None =>
        assert forall j :: 1 <= j < |options| ==> options[j] == options[1..][j - 1];
        None
      case Some(k) =>
        assert forall j :: 1 <= j <= k ==> options[j] == options[1..][j - 1];
        Some(k + 1)
  }

  /** The option is offered for `company`: the placeholder, or tagged with that company. */
  predicate OfferedFor(o: PosOption, company: string) {
    o.value == "" || o.empresa == Some(company)
  }

  /** The current value stays only when its first option belongs to the company. */
  predicate KeepsValue(options: seq<PosOption>, company: string, current: string) {
    current == ""
    || (FirstOptionWithValue(options, current).Some?
        && options[FirstOptionWithValue(options, current).value].empresa == Some(company))
  }

  /** `handlePuntosVentaActivation` for the current area, company, options and select value. */
  function ActivatePos(area: string, company: string, options: seq<PosOption>, current: string): (f: PosField)
    ensures f.enabled <==> area == PosArea && company in PosCompanies
    ensures |f.visible| == |options|
    ensures !f.enabled ==> f.value == "" && forall i :: 0 <= i < |options| ==> f.visible[i]
    ensures f.enabled ==> forall i :: 0 <= i < |options| ==> (f.visible[i] <==> OfferedFor(options[i], company))
    ensures f.enabled ==> (f.value == current <==> KeepsValue(options, company, current))
    ensures f.value == current || f.value == ""
  {
    if area == PosArea && company in PosCompanies then
      var visible := seq(|options|, i requires 0 <= i < |options| => OfferedFor(options[i], company));
      PosField(true, if KeepsValue(options, company, current) then current else "", visible)
    else
      PosField(false, "", seq(|options|, i => true))
  }

  /** A value that survives activation belongs to a visible option. */
  lemma KeptValueIsOffered(area: string, company: string, options: seq<PosOption>, current: string)
    requires ActivatePos(area, company, options, current).value != ""
    ensures var f := ActivatePos(area, company, options, current);
      exists i :: 0 <= i < |options| && options[i].value == f.value && f.visible[i]
  {
    var i := FirstOptionWithValue(options, current).value;
    assert OfferedFor(options[i], company);
  }

  /** Running the handler again on its own result changes nothing. */
  lemma ActivatePosIdempotent(area: string, company: string, options: seq<PosOption>, current: string)
    ensures var f := ActivatePos(area, company, options, current);
      ActivatePos(area, company, options, f.value) == f
  {
  }

  /** `empresaPDFMap`: the company names that have an authorisation document. */
  const CompanyPdf: map<string, string> := map[
    "Centromotos" := "AUTORIZACION-CENTROMOTOS.pdf",
    "Distrimotos" := "AUTORIZACION-Distrimotos.pdf",
    "Credimotos" := "AUTORIZACION-CREDIMOTOS.pdf",
    "Credimovil" := "AUTORIZACION-Credimovil.pdf",
    "Motomovil" := "AUTORIZACION-Motomovil.pdf",
    "Sabanamotos" := "AUTORIZACION-Sabanamotos.pdf",
    "Motocredito" := "AUTORIZACION-Motocredito.pdf",
    "Motos Del Aburra" := "AUTORIZACION-MotosDelAburra.pdf",
    "Fintotal" := "AUTORIZACION-FINTOTAL.pdf",
    "Motoracing" := "AUTORIZACION-Motoracing.pdf",
    "Motos Del Darien" := "AUTORIZACION-MotosDelDarien.pdf"]

  /** Property names every plain object literal inherits from `Object.prototype`; each reads as a truthy value. */
  const InheritedKeys: set<string> := {
    "constructor", "__proto__", "hasOwnProperty", "isPrototypeOf", "propertyIsEnumerable",
    "toString", "toLocaleString", "valueOf",
    "__defineGetter__", "__defineSetter__", "__lookupGetter__", "__lookupSetter__"}

  /** `empresa && empresaPDFMap[empresa]` as written: inherited properties are found too. */
  function ShowsPdfAsWritten(empresa: string): (shown: bool)
    ensures shown <==> empresa in PosCompanies || empresa in InheritedKeys
  {
    PdfKeysArePosCompanies();
    empresa != "" && (empresa in CompanyPdf || empresa in InheritedKeys)
  }

  /** The intended condition: the company has its own entry in the map. */
  function ShowsPdf(empresa: string): (shown: bool)
    ensures shown <==> empresa in PosCompanies
  {
    PdfKeysArePosCompanies();
    empresa in CompanyPdf
  }

  /** The PDF map covers exactly the companies with points of sale. */
  lemma PdfKeysArePosCompanies()
    ensures CompanyPdf.Keys == set c | c in PosCompanies
  {
  }

  /** A company typed as "constructor" opens the PDF panel, with a path that names no file. */
  lemma InheritedKeyShowsPdf()
    ensures ShowsPdfAsWritten("constructor")
    ensures !ShowsPdf("constructor")
  {
  }

  /** Apart from inherited names, the written condition and the intended one agree. */
  lemma ShowsPdfAgreesOffInheritedKeys(empresa: string)
    requires empresa !in InheritedKeys
    ensures ShowsPdfAsWritten(empresa) <==> ShowsPdf(empresa)
  {
  }

  // ---------------------------------------------------------------------
  // Anonymous mode
  // ---------------------------------------------------------------------

  datatype FormField = NameField | EmailField | CompanyField | AreaField

  /** The fields whose `required` attribute anonymous mode removes and restores. */
  const IdentityRequired: set<FormField> := {NameField, EmailField, CompanyField, AreaField}

  /** The values and flags of the intake form that anonymous mode touches. */
  datatype IntakeForm = IntakeForm(
    name: string, email: string, phone: string, company: string, companyReadOnly: bool,
    area: string, puntosVenta: string, incidentDate: string, position: string, descripcion: string,
    required: set<FormField>, pdfShown: bool)

  /** Anonymous mode leaves no identifying value behind. */
  predicate IdentityCleared(f: IntakeForm) {
    f.name == "" && f.email == "" && f.phone == "" && f.company == "" && f.area == ""
    && f.puntosVenta == "" && f.incidentDate == ""
  }

  /**
   `toggleAnonymousMode(on)`. `urlCompany` is the `empresa` URL parameter
   that `setCompanyFromURL` copies back when the mode is switched off.
   */
  function ToggleAnonymous(f: IntakeForm, on: bool, urlCompany: Option<string>): (g: IntakeForm)
    ensures on ==> IdentityCleared(g) && g.required * IdentityRequired == {} && !g.pdfShown
    ensures on ==> g.required == f.required - IdentityRequired
    ensures !on ==> g.required == f.required + IdentityRequired
    ensures !on && Truthy(urlCompany) ==> g.company == urlCompany.value && g.companyReadOnly
    ensures !on && !Truthy(urlCompany) ==> g == f.(required := f.required + IdentityRequired)
    ensures !on ==> g.name == f.name && g.email == f.email && g.phone == f.phone && g.area == f.area
    ensures g.position == f.position && g.descripcion == f.descripcion
  {
    if on then
      f.(name := "", email := "", phone := "", company := "", area := "", puntosVenta := "",
         incidentDate := "", required := f.required - IdentityRequired, pdfShown := false)
    else
      var g := f.(required := f.required + IdentityRequired);
      if Truthy(urlCompany) then g.(company := urlCompany.value, companyReadOnly := true) else g
  }

  /** Switching anonymous mode on twice is the same as switching it on once. */
  lemma AnonymousOnIdempotent(f: IntakeForm, urlCompany: Option<string>)
    ensures ToggleAnonymous(ToggleAnonymous(f, true, urlCompany), true, urlCompany) == ToggleAnonymous(f, true, urlCompany)
  {
  }

  /** A form sent in anonymous mode carries an empty name, which the server reads as anonymous. */
  lemma AnonymousFormIsAnonymousAtServer(f: IntakeForm, urlCompany: Option<string>)
    ensures Server.IsAnonymous(Some(ToggleAnonymous(f, true, urlCompany).name))
  {
  }

  // ---------------------------------------------------------------------
  // Incident date fields
  // ---------------------------------------------------------------------

  datatype DateMode = Single | Range

  /** The radio selection and the three date inputs; None is an empty input, Some(d) a day number. */
  datatype DateFields = DateFields(mode: DateMode, single: Option<int>, initial: Option<int>, end: Option<int>)

  /** A user action: choosing a radio button, or a change event on a visible date input. */
  datatype DateEvent = SelectMode(m: DateMode) | SetSingle(d: Option<int>) | SetInitial(d: Option<int>) | SetEnd(d: Option<int>)

  /** The check both range inputs run on change: an end before the start is cleared. */
  function CheckRange(s: DateFields): (t: DateFields)
    ensures t.mode == s.mode && t.single == s.single && t.initial == s.initial
    ensures t.end == s.end || t.end.None?
    ensures t.initial.Some? && t.end.Some? ==> t.end.value >= t.initial.value
    ensures t == s <==> !(s.initial.Some? && s.end.Some? && s.end.value < s.initial.value)
  {
    if s.initial.Some? && s.end.Some? && s.end.value < s.initial.value then s.(end := None) else s
  }

  /**
   One event. `toggleDateFields` clears the inputs of the mode not chosen;
   an input whose group is hidden cannot receive a change, so such an event
   leaves the state alone.
   */
  function Step(s: DateFields, e: DateEvent): (t: DateFields)
    ensures t.mode == (if e.SelectMode? then e.m else s.mode)
    ensures e == SelectMode(Single) ==> t.single == s.single && t.initial.None? && t.end.None?
    ensures e == SelectMode(Range) ==> t.single.None? && t.initial == s.initial && t.end == s.end
    ensures e.SetSingle? && s.mode == Single ==> t.single == e.d && t.initial == s.initial && t.end == s.end
    ensures e.SetInitial? && s.mode == Range ==> t.initial == e.d && t.single == s.single && (t.end == s.end || t.end.None?)
    ensures e.SetEnd? && s.mode == Range ==> (t.end == e.d || t.end.None?) && t.single == s.single && t.initial == s.initial
    ensures (e.SetSingle? && s.mode == Range) || ((e.SetInitial? || e.SetEnd?) && s.mode == Single) ==> t == s
  {
    match e
    case SelectMode(Single) => s.(mode := Single, initial := None, end := None)
    case SelectMode(Range) => s.(mode := Range, single := None)
    case SetSingle(d) => if s.mode == Single then s.(single := d) else s
    case SetInitial(d) => if s.mode == Range then CheckRange(s.(initial := d)) else s
    case SetEnd(d) => if s.mode == Range then CheckRange(s.(end := d)) else s
  }

  function Run(s: DateFields, events: seq<DateEvent>): DateFields
    decreases |events|
  {
    if |events| == 0 then s else Run(Step(s, events[0]), events[1..])
  }

  /** Only the chosen mode's inputs hold a value, and a filled range is ordered. */
  predicate DatesConsistent(s: DateFields) {
    && (s.mode == Single ==> s.initial.None? && s.end.None?)
    && (s.mode == Range ==> s.single.None?)
    && (s.initial.Some? && s.end.Some? ==> s.end.value >= s.initial.value)
  }

  lemma StepKeepsDatesConsistent(s: DateFields, e: DateEvent)
    requires DatesConsistent(s)
    ensures DatesConsistent(Step(s, e))
  {
  }

  /** From a consistent start, no sequence of user actions fills both a single date and a range, or leaves a reversed range. */
  lemma {:induction false} RunKeepsDatesConsistent(s: DateFields, events: seq<DateEvent>)
    requires DatesConsistent(s)
    ensures DatesConsistent(Run(s, events))
    ensures var t := Run(s, events); !(t.single.Some? && (t.initial.Some? || t.end.Some?))
    decreases |events|
  {
    if |events| > 0 {
      StepKeepsDatesConsistent(s, events[0]);
      RunKeepsDatesConsistent(Step(s, events[0]), events[1..]);
    }
  }

  // ---------------------------------------------------------------------
  // Attachment size gate
  // ---------------------------------------------------------------------

  const OversizeMessage := "Uno o más archivos exceden el tamaño máximo de 5MB"

  /** The loop over `fileInput.files` in the submit handler: None lets the submission go on. */
  method CheckAttachmentSizes(sizes: seq<nat>) returns (error: Option<string>)
    ensures error.None? <==> forall i :: 0 <= i < |sizes| ==> sizes[i] <= Upload.MaxFileBytes
    ensures error.Some? ==> error.value == OversizeMessage
  {
    var i := 0;
    while i < |sizes|
      invariant 0 <= i <= |sizes|
      invariant forall j :: 0 <= j < i ==> sizes[j] <= Upload.MaxFileBytes
    {
      if sizes[i] > Upload.MaxFileBytes {
        return Some(OversizeMessage);
      }
      i := i + 1;
    }
    return None;
  }
}

=== FILE: js.dfy ===
/**
 The JavaScript value and string primitives the intake form, the dashboard
 and both servers lean on: missing values, truthiness (`x || fallback`),
 `String.prototype.trim`, `toLowerCase` and `includes`.
 */
module Js {

  /** A value that may be `undefined`/`null` (None) or present (Some). */
  datatype Option<+T> = None | Some(value: T)

  /** A scalar as it arrives in a JSON body, where the source compares with `===`. */
  datatype Scalar = Null | Bool(b: bool) | Num(n: int) | Str(s: string)

  /** JavaScript truthiness of a possibly missing string: missing and "" are falsy. */
  predicate Truthy(v: Option<string>) {
    v.Some? && v.value != ""
  }

  /** `v || fallback` for a possibly missing string. */
  function Or(v: Option<string>, fallback: string): (r: string)
    ensures Truthy(v) ==> r == v.value
    ensures !Truthy(v) ==> r == fallback
    ensures fallback != "" ==> r != ""
  {
    if Truthy(v) then v.value else fallback
  }

  /** `v || null`: a falsy value is stored as SQL NULL. */
  function OrNull(v: Option<string>): (r: Option<string>)
    ensures r.Some? <==> Truthy(v)
    ensures r.Some? ==> r == v
  {
    if Truthy(v) then v else None
  }

  /**
   Storing `v || null` and reading it back with `|| fallback` gives what
   `v || fallback` gives directly, and a second `|| null` changes nothing.
   */
  lemma OrNullThenOr(v: Option<string>, fallback: string)
    ensures Or(OrNull(v), fallback) == Or(v, fallback)
    ensures OrNull(OrNull(v)) == OrNull(v)
    ensures Truthy(OrNull(v)) == Truthy(v)
  {
  }

  /** The characters `trim()` removes and `\s` matches: WhiteSpace and LineTerminator of ECMAScript. */
  predicate IsSpace(c: char) {
    var n := c as int;
    n == 0x09 || n == 0x0A || n == 0x0B || n == 0x0C || n == 0x0D || n == 0x20
    || n == 0xA0 || n == 0x1680 || (0x2000 <= n <= 0x200A) || n == 0x2028 || n == 0x2029
    || n == 0x202F || n == 0x205F || n == 0x3000 || n == 0xFEFF
  }

  ghost predicate AllSpace(s: string) {
    forall i :: 0 <= i < |s| ==> IsSpace(s[i])
  }

  /** `r` is a slice of `s` and everything of `s` before and after it is whitespace. */
  ghost predicate WhitespaceMargins(s: string, r: string) {
    exists i :: 0 <= i && i + |r| <= |s| && r == s[i..i + |r|] && AllSpace(s[..i]) && AllSpace(s[i + |r|..])
  }

  /** `s` without its leading whitespace: a suffix of `s` whose removed prefix is all whitespace. */
  function TrimStart(s: string): (r: string)
    ensures |r| <= |s| && r == s[|s| - |r|..]
    ensures AllSpace(s[..|s| - |r|])
    ensures r == "" || !IsSpace(r[0])
    ensures r == "" <==> AllSpace(s)
  {
    if |s| > 0 && IsSpace(s[0]) then
      var r := TrimStart(s[1..]);
      TrimStartStep(s, r);
      r
    else s
  }

  /** Dropping one leading space keeps the facts `TrimStart` promises. */
  lemma TrimStartStep(s: string, r: string)
    requires |s| > 0 && IsSpace(s[0])
    requires |r| <= |s| - 1 && r == s[1..][|s| - 1 - |r|..] && AllSpace(s[1..][..|s| - 1 - |r|])
    ensures r == s[|s| - |r|..] && AllSpace(s[..|s| - |r|])
    ensures AllSpace(s) <==> AllSpace(s[1..])
  {
    var rest := s[1..];
    assert r == s[|s| - |r|..];
    forall i | 0 < i < |s| - |r| ensures IsSpace(s[i]) {
      assert s[i] == rest[..|rest| - |r|][i - 1];
    }
    if AllSpace(rest) {
      forall i | 0 < i < |s| ensures IsSpace(s[i]) { assert s[i] == rest[i - 1]; }
    }
  }

  /** `s` without its trailing whitespace: a prefix of `s` whose removed suffix is all whitespace. */
  function TrimEnd(s: string): (r: string)
    ensures |r| <= |s| && r == s[..|r|]
    ensures AllSpace(s[|r|..])
    ensures r == "" || !IsSpace(r[|r| - 1])
    ensures r == "" ==> AllSpace(s)
  {
    if |s| > 0 && IsSpace(s[|s| - 1]) then
      var r := TrimEnd(s[..|s| - 1]);
      TrimEndStep(s, r);
      r
    else s
  }

  /** Dropping one trailing space keeps the facts `TrimEnd` promises. */
  lemma TrimEndStep(s: string, r: string)
    requires |s| > 0 && IsSpace(s[|s| - 1])
    requires |r| <= |s| - 1 && r == s[..|s| - 1][..|r|] && AllSpace(s[..|s| - 1][|r|..])
    requires r == "" ==> AllSpace(s[..|s| - 1])
    ensures r == s[..|r|] && AllSpace(s[|r|..])
    ensures r == "" ==> AllSpace(s)
  {
    var init := s[..|s| - 1];
    forall i | |r| <= i < |s| ensures IsSpace(s[i]) {
      if i < |s| - 1 { assert s[i] == init[|r|..][i - |r|]; }
    }
  }

  /**
   `s.trim()`: the slice of `s` left once its leading and trailing
   whitespace is removed; it neither starts nor ends with whitespace.
   */
  function Trim(s: string): (r: string)
    ensures |r| <= |s|
    ensures WhitespaceMargins(s, r)
    ensures r == "" || (!IsSpace(r[0]) && !IsSpace(r[|r| - 1]))
    ensures r == "" <==> AllSpace(s)
  {
    var t := TrimStart(s);
    var r := TrimEnd(t);
    TrimMargins(s, t, r);
    r
  }

  /** Removing a whitespace prefix and then a whitespace suffix leaves a slice with whitespace margins. */
  lemma TrimMargins(s: string, t: string, r: string)
    requires |t| <= |s| && t == s[|s| - |t|..] && AllSpace(s[..|s| - |t|])
    requires t == "" || !IsSpace(t[0])
    requires t == "" <==> AllSpace(s)
    requires |r| <= |t| && r == t[..|r|] && AllSpace(t[|r|..])
    requires r == "" || !IsSpace(r[|r| - 1])
    requires r == "" ==> AllSpace(t)
    ensures WhitespaceMargins(s, r)
    ensures r == "" || (!IsSpace(r[0]) && !IsSpace(r[|r| - 1]))
    ensures r == "" <==> AllSpace(s)
  {
    assert r != "" ==> r[0] == t[0];
    var i := |s| - |t|;
    assert r == s[i..i + |r|];
    assert s[i + |r|..] == t[|r|..];
  }

  /** The upper-case letters of ASCII and Latin-1: A-Z and À-Þ without ×. */
  predicate IsUpper(c: char) {
    var n := c as int;
    (0x41 <= n <= 0x5A) || (0xC0 <= n <= 0xDE && n != 0xD7)
  }

  /** `c.toLowerCase()` for one character, exact on ASCII and Latin-1. */
  function LowerChar(c: char): char {
    if IsUpper(c) then (c as int + 32) as char else c
  }

  /** `s.toLowerCase()` (ASCII and Latin-1 letters; see README). */
  function ToLower(s: string): (r: string)
    ensures |r| == |s|
    ensures forall i :: 0 <= i < |r| ==> !IsUpper(r[i])
    ensures forall i :: 0 <= i < |s| && !IsUpper(s[i]) ==> r[i] == s[i]
    ensures forall i :: 0 <= i < |s| && IsUpper(s[i]) ==> r[i] as int == s[i] as int + 32
  {
    seq(|s|, i requires 0 <= i < |s| => LowerChar(s[i]))
  }

  /** Lower-casing twice is lower-casing once. */
  lemma ToLowerIdempotent(s: string)
    ensures ToLower(ToLower(s)) == ToLower(s)
  {
  }

  /** `t` differs from `s` at most in the case of its ASCII and Latin-1 letters. */
  predicate SameUpToCase(s: string, t: string) {
    |s| == |t| && forall i :: 0 <= i < |s| ==> LowerChar(s[i]) == LowerChar(t[i])
  }

  /** Texts that differ only in case, such as "PDF" and "pdf" or "Fraude" and "fraude", lower-case alike, and only those. */
  lemma ToLowerIgnoresCase(s: string, t: string)
    ensures ToLower(s) == ToLower(t) <==> SameUpToCase(s, t)
    ensures ToLower("PDF") == "pdf" && ToLower("Fraude") == "fraude"
  {
    if ToLower(s) == ToLower(t) {
      assert forall i :: 0 <= i < |s| ==> ToLower(s)[i] == ToLower(t)[i];
    }
    assert "PDF"[0] == 'P' && "PDF"[1] == 'D' && "PDF"[2] == 'F';
    assert "Fraude"[0] == 'F' && forall i :: 1 <= i < 6 ==> !IsUpper("Fraude"[i]);
  }

  /** The needle `t` occurs in `s` starting at index `k`. */
  ghost predicate OccursAt(s: string, t: string, k: int) {
    0 <= k && k + |t| <= |s| && s[k..k + |t|] == t
  }

  /** `s.includes(t)`: true exactly when `t` occurs somewhere in `s`. */
  function Includes(s: string, t: string): (b: bool)
    ensures b <==> exists k :: OccursAt(s, t, k)
    decreases |s|
  {
    if |t| > |s| then
      assert forall k :: !OccursAt(s, t, k);
      false
    else if s[..|t|] == t then
      assert OccursAt(s, t, 0);
      true
    else
      var rest := s[1..];
      var b := Includes(rest, t);
      if b then
        assert exists k :: OccursAt(s, t, k) by {
          var k :| OccursAt(rest, t, k);
          assert s[k + 1..k + 1 + |t|] == rest[k..k + |t|];
          assert OccursAt(s, t, k + 1);
        }
        b
      else
        assert forall k :: OccursAt(s, t, k) ==> k >= 1 && OccursAt(rest, t, k - 1) by {
          forall k | OccursAt(s, t, k) ensures k >= 1 && OccursAt(rest, t, k - 1) {
            assert s[0..|t|] == s[..|t|];
            assert rest[k - 1..k - 1 + |t|] == s[k..k + |t|];
          }
        }
        b
  }

  /** The index of the first `c` in `s`, if any. */
  function IndexOf(s: string, c: char): (r: Option<nat>)
    ensures r.Some? ==> r.value < |s| && s[r.value] == c && c !in s[..r.value]
    ensures r.None? <==> c !in s
  {
    if |s| == 0 then None
    else if s[0] == c then Some(0)
    else match IndexOf(s[1..], c)
      case None => None
      case Some(i) =>
        assert s[..i + 1] == [s[0]] + s[1..][..i];
        Some(i + 1)
  }

  /** The index of the last `c` in `s`, if any. */
  function LastIndexOf(s: string, c: char): (r: Option<nat>)
    ensures r.Some? ==> r.value < |s| && s[r.value] == c && c !in s[r.value + 1..]
    ensures r.None? <==> c !in s
  {
    if |s| == 0 then None
    else if s[|s| - 1] == c then Some(|s| - 1)
    else match LastIndexOf(s[..|s| - 1], c)
      case None =>
        assert s == s[..|s| - 1] + [s[|s| - 1]];
        None
      case Some(i) =>
        assert s[i + 1..] == s[..|s| - 1][i + 1..] + [s[|s| - 1]];
        Some(i)
  }
}

=== FILE: json_text.dfy ===
/**
 `JSON.stringify` applied to an array of strings (how the desktop server
 stores its attachment URL list), together with an independent reader for
 that text, so that what is stored can be shown to be exactly the list.
 */
module JsonText {
  import opened Js

  /** A lower-case hexadecimal digit, as `JSON.stringify` writes them. */
  function HexDigit(d: nat): char
    requires d < 16
  {
    if d < 10 then ('0' as int + d) as char else ('a' as int + d - 10) as char
  }

  /** The value of one hexadecimal digit of either case. */
  function HexValue(c: char): Option<nat> {
    if '0' <= c <= '9' then Some(c as int - '0' as int)
    else if 'a' <= c <= 'f' then Some(c as int - 'a' as int + 10)
    else if 'A' <= c <= 'F' then Some(c as int - 'A' as int + 10)
    else None
  }

  /** The value of four hexadecimal digits. */
  function Hex4(h: string): (r: Option<nat>)
    requires |h| == 4
    ensures r.Some? ==> r.value < 0x10000
  {
    match (HexValue(h[0]), HexValue(h[1]), HexValue(h[2]), HexValue(h[3]))
    case (Some(a), Some(b), Some(c), Some(d)) =>
      assert a < 16 && b < 16 && c < 16 && d < 16;
      Some(((a * 16 + b) * 16 + c) * 16 + d)
    case _ => None
  }

  /** QuoteJSONString for one character. */
  function EscapeChar(c: char): string {
    var n := c as int;
    if n == 0x22 then ['\\', '"']
    else if n == 0x5C then ['\\', '\\']
    else if n == 0x08 then ['\\', 'b']
    else if n == 0x0C then ['\\', 'f']
    else if n == 0x0A then ['\\', 'n']
    else if n == 0x0D then ['\\', 'r']
    else if n == 0x09 then ['\\', 't']
    else if n < 0x20 then ['\\', 'u', '0', '0', HexDigit(n / 16), HexDigit(n % 16)]
    else [c]
  }

  function Escape(s: string): string {
    if |s| == 0 then "" else EscapeChar(s[0]) + Escape(s[1..])
  }

  /** `JSON.stringify(s)` for one string. */
  function Quote(s: string): string {
    "\"" + Escape(s) + "\""
  }

  function Items(xs: seq<string>): string {
    if |xs| == 0 then ""
    else if |xs| == 1 then Quote(xs[0])
    else Quote(xs[0]) + "," + Items(xs[1..])
  }

  /** `JSON.stringify(xs)` for an array of strings: no spaces, "," between items. */
  function Stringify(xs: seq<string>): (text: string)
    ensures |text| >= 2 && text[0] == '[' && text[|text| - 1] == ']'
    ensures text == "[]" <==> |xs| == 0
  {
    assert |xs| > 0 ==> Items(xs)[0] == '"';
    "[" + Items(xs) + "]"
  }

  /** Distinct lists are stored as distinct texts. */
  lemma StringifyInjective(xs: seq<string>, ys: seq<string>)
    ensures Stringify(xs) == Stringify(ys) <==> xs == ys
  {
    ParseStringify(xs);
    ParseStringify(ys);
  }

  /** Reads one escape sequence; `s` is the text after the backslash. */
  function Unescape(s: string): (r: Option<(char, string)>)
    ensures r.Some? ==> |r.value.1| < |s|
  {
    if |s| == 0 then None
    else if s[0] == '"' then Some(('"', s[1..]))
    else if s[0] == '\\' then Some(('\\', s[1..]))
    else if s[0] == '/' then Some(('/', s[1..]))
    else if s[0] == 'b' then Some((8 as char, s[1..]))
    else if s[0] == 'f' then Some((12 as char, s[1..]))
    else if s[0] == 'n' then Some(('\n', s[1..]))
    else if s[0] == 'r' then Some(('\r', s[1..]))
    else if s[0] == 't' then Some(('\t', s[1..]))
    else if s[0] == 'u' && |s| >= 5 then
      match Hex4(s[1..5])
      case None => None
      case Some(v) => if 0xD800 <= v < 0xE000 then None else Some((v as char, s[5..]))
    else None
  }

  /**
   Reads the body of a JSON string; `s` is the text after the opening quote.
   Returns the decoded string and the text after the closing quote.
   */
  function ReadString(s: string): (r: Option<(string, string)>)
    ensures r.Some? ==> |r.value.1| < |s|
    decreases |s|
  {
    if |s| == 0 then None
    else if s[0] == '"' then Some(("", s[1..]))
    else if s[0] == '\\' then
      match Unescape(s[1..])
      case None => None
      case Some((c, rest)) =>
        match ReadString(rest)
        case None => None
        case Some((body, after)) => Some(([c] + body, after))
    else if (s[0] as int) < 0x20 then None
    else
      match ReadString(s[1..])
      case None => None
      case Some((body, after)) => Some(([s[0]] + body, after))
  }

  /** Reads `"..."` items separated by ',' up to a final ']' that ends the text. */
  function ReadItems(s: string): Option<seq<string>>
    decreases |s|
  {
    if |s| == 0 || s[0] != '"' then None
    else
      match ReadString(s[1..])
      case None => None
      case Some((x, rest)) =>
        if rest == "]" then Some([x])
        else if |rest| > 0 && rest[0] == ',' then
          match ReadItems(rest[1..])
          case None => None
          case Some(xs) => Some([x] + xs)
        else None
  }

  /** Reads a JSON array of strings written without insignificant whitespace. */
  function Parse(s: string): Option<seq<string>> {
    if s == "[]" then Some([])
    else if |s| > 0 && s[0] == '[' then ReadItems(s[1..])
    else None
  }

  lemma HexDigitValue(d: nat)
    requires d < 16
    ensures HexValue(HexDigit(d)) == Some(d)
  {
  }

  /** Reading back what EscapeChar wrote yields the character and leaves the rest alone. */
  lemma UnescapeEscapeChar(c: char, rest: string)
    requires EscapeChar(c) != [c]
    ensures EscapeChar(c)[0] == '\\'
    ensures Unescape(EscapeChar(c)[1..] + rest) == Some((c, rest))
  {
    var n := c as int;
    var e := EscapeChar(c)[1..] + rest;
    if n < 0x20 && n != 0x08 && n != 0x0C && n != 0x0A && n != 0x0D && n != 0x09 {
      HexDigitValue(n / 16);
      HexDigitValue(n % 16);
      assert e[1..5] == ['0', '0', HexDigit(n / 16), HexDigit(n % 16)];
      assert Hex4(e[1..5]) == Some(n);
      assert e[5..] == rest;
    } else {
      assert e[1..] == rest;
    }
  }

  /** One unfolding of ReadString on a character that needs no escape. */
  lemma ReadStringPlain(c: char, t: string, body: string, after: string)
    requires c != '"' && c != '\\' && c as int >= 0x20
    requires ReadString(t) == Some((body, after))
    ensures ReadString([c] + t) == Some(([c] + body, after))
  {
    assert ([c] + t)[1..] == t;
  }

  /** One unfolding of ReadString on an escape sequence. */
  lemma ReadStringEscaped(e: string, c: char, t: string, body: string, after: string)
    requires Unescape(e) == Some((c, t))
    requires ReadString(t) == Some((body, after))
    ensures ReadString(['\\'] + e) == Some(([c] + body, after))
  {
    assert (['\\'] + e)[1..] == e;
  }

  lemma EscapeCons(c: char, x: string)
    ensures Escape([c] + x) == EscapeChar(c) + Escape(x)
  {
    assert ([c] + x)[1..] == x;
  }

  /** Reading one more character in front of an already readable body. */
  lemma ReadStringOfEscapeStep(c: char, x: string, rest: string)
    requires ReadString(Escape(x) + "\"" + rest) == Some((x, rest))
    ensures ReadString(Escape([c] + x) + "\"" + rest) == Some(([c] + x, rest))
  {
    var tail := Escape(x) + "\"" + rest;
    EscapeCons(c, x);
    assert Escape([c] + x) + "\"" + rest == EscapeChar(c) + tail;
    if EscapeChar(c) == [c] {
      ReadStringPlain(c, tail, x, rest);
    } else {
      ReadStringEscapedChar(c, tail, x, rest);
    }
  }

  lemma ReadStringEscapedChar(c: char, tail: string, x: string, rest: string)
    requires EscapeChar(c) != [c]
    requires ReadString(tail) == Some((x, rest))
    ensures ReadString(EscapeChar(c) + tail) == Some(([c] + x, rest))
  {
    UnescapeEscapeChar(c, tail);
    var e := EscapeChar(c)[1..] + tail;
    assert EscapeChar(c) + tail == ['\\'] + e;
    ReadStringEscaped(e, c, tail, x, rest);
  }

  lemma {:induction false} ReadStringOfEscape(x: string, rest: string)
    ensures ReadString(Escape(x) + "\"" + rest) == Some((x, rest))
    decreases |x|
  {
    if |x| == 0 {
      assert Escape(x) + "\"" + rest == "\"" + rest;
    } else {
      ReadStringOfEscape(x[1..], rest);
      ReadStringOfEscapeStep(x[0], x[1..], rest);
      assert [x[0]] + x[1..] == x;
    }
  }

  /** One unfolding of ReadItems once the first item's string has been read. */
  lemma ReadItemsStep(body: string, x: string, after: string)
    requires ReadString(body) == Some((x, after))
    ensures after == "]" ==> ReadItems("\"" + body) == Some([x])
    ensures after != "]" && |after| > 0 && after[0] == ',' && ReadItems(after[1..]).Some? ==>
      ReadItems("\"" + body) == Some([x] + ReadItems(after[1..]).value)
  {
    assert ("\"" + body)[1..] == body;
  }

  /** A one-item list reads back. */
  lemma ReadItemsOfOne(x: string)
    ensures ReadItems(Items([x]) + "]") == Some([x])
  {
    assert Items([x]) + "]" == "\"" + (Escape(x) + "\"" + "]");
    ReadStringOfEscape(x, "]");
    ReadItemsStep(Escape(x) + "\"" + "]", x, "]");
  }

  /** A list of two or more items, as text: the first quoted item, a comma, the rest. */
  lemma ItemsConsShape(xs: seq<string>)
    requires |xs| > 1
    ensures Items(xs) + "]" == "\"" + (Escape(xs[0]) + "\"" + ("," + Items(xs[1..]) + "]"))
  {
    var e, t := Escape(xs[0]), Items(xs[1..]);
    assert Items(xs) == "\"" + e + "\"" + "," + t;
    Regroup(e, t);
  }

  /** An escaped item followed by a comma and a readable rest reads as that item in front of the rest. */
  lemma ReadConsBody(x: string, t: string, ys: seq<string>)
    requires ReadItems(t + "]") == Some(ys)
    ensures ReadItems("\"" + (Escape(x) + "\"" + ("," + t + "]"))) == Some([x] + ys)
  {
    var after := "," + t + "]";
    ReadStringOfEscape(x, after);
    assert after[1..] == t + "]";
    ReadItemsStep(Escape(x) + "\"" + after, x, after);
  }

  /** The first item reads back in front of whatever the rest reads as. */
  lemma ReadItemsOfCons(xs: seq<string>)
    requires |xs| > 1 && ReadItems(Items(xs[1..]) + "]") == Some(xs[1..])
    ensures ReadItems(Items(xs) + "]") == Some([xs[0]] + xs[1..])
  {
    ItemsConsShape(xs);
    ReadConsBody(xs[0], Items(xs[1..]), xs[1..]);
  }

  /** The regrouping of an item, its separator and the rest that the reader follows. */
  lemma Regroup(e: string, t: string)
    ensures "\"" + e + "\"" + "," + t + "]" == "\"" + (e + "\"" + ("," + t + "]"))
  {
  }

  lemma {:induction false} ReadItemsOfItems(xs: seq<string>)
    requires |xs| > 0
    ensures ReadItems(Items(xs) + "]") == Some(xs)
    decreases |xs|
  {
    if |xs| == 1 {
      ReadItemsOfOne(xs[0]);
      assert xs == [xs[0]];
    } else {
      ReadItemsOfItems(xs[1..]);
      ReadItemsOfCons(xs);
      assert [xs[0]] + xs[1..] == xs;
    }
  }

  /** Parsing the text `JSON.stringify` produced gives back the same list, in order. */
  lemma ParseStringify(xs: seq<string>)
    ensures Parse(Stringify(xs)) == Some(xs)
  {
    if |xs| > 0 {
      ReadItemsOfItems(xs);
      var s := Stringify(xs);
      assert s[1] == '"';
      assert s != "[]";
      assert s[1..] == Items(xs) + "]";
    }
  }
}

=== FILE: submit_server.dfy ===
/**
 The report intake server: the required-field check of `/api/submit-report`,
 the `feedback` row it builds (anonymity, identity nulling, defaults, the
 comma-joined attachment names), the session gate `requireAuth` and the
 decision logic of `/api/auth/login`.
 */
module Server {
  import opened Js

  // ---------------------------------------------------------------------
  // Submission
  // ---------------------------------------------------------------------

  /** The text fields of the multipart body; None when the field was not sent. */
  datatype SubmitBody = SubmitBody(
    tipoReporte: Option<string>,
    area: Option<string>,
    descripcion: Option<string>,
    nombreReportante: Option<string>,
    emailReportante: Option<string>,
    telefonoReportante: Option<string>,
    empresa: Option<string>,
    position: Option<string>,
    situationRelation: Option<string>,
    asunto: Option<string>,
    puntosVenta: Option<string>,
    fechaIncidente: Option<string>,
    fechaIncidenteInicial: Option<string>,
    fechaIncidenteFinal: Option<string>)

  /** The parameters bound into the `INSERT INTO feedback` statement; None is SQL NULL. */
  datatype FeedbackRow = FeedbackRow(
    name: Option<string>,
    email: Option<string>,
    phone: Option<string>,
    company: string,
    position: string,
    situationRelation: string,
    reportType: Option<string>,
    subject: Option<string>,
    message: Option<string>,
    anonymous: bool,
    attachmentUrls: Option<string>,
    area: Option<string>,
    puntosVenta: Option<string>,
    incidentDate: Option<string>,
    incidentDateInitial: Option<string>,
    incidentDateEnd: Option<string>)

  const MissingFieldsMessage := "Faltan campos requeridos: tipo_reporte, area, descripcion"
  const InternalErrorMessage := "Error interno del servidor"
  const SubmitOkMessage := "Reporte enviado exitosamente"
  const NoCompany := "No especificada"
  const NotSpecified := "No especificado"

  /** `!tipo_reporte || !area || !descripcion` negated: the three fields whose falsiness answers 400. */
  function HasRequiredFields(body: SubmitBody): (ok: bool)
    ensures ok ==> body.tipoReporte.Some? && body.area.Some? && body.descripcion.Some?
    ensures body.tipoReporte == Some("") || body.area == Some("") || body.descripcion == Some("") ==> !ok
  {
    Truthy(body.tipoReporte) && Truthy(body.area) && Truthy(body.descripcion)
  }

  /**
   Only the three fields are consulted, and they are not trimmed: a
   description of blanks passes, and the reporter's identity, company,
   relation and dates never decide the 400.
   */
  lemma RequiredFieldsAreUntrimmedAndAlone(body: SubmitBody, other: SubmitBody)
    requires other.tipoReporte == body.tipoReporte && other.area == body.area && other.descripcion == body.descripcion
    ensures HasRequiredFields(other) == HasRequiredFields(body)
    ensures Truthy(body.tipoReporte) && Truthy(body.area) ==> HasRequiredFields(body.(descripcion := Some("   ")))
  {
  }

  /** `!nombre_reportante || nombre_reportante.trim() === ''`. */
  function IsAnonymous(nombre: Option<string>): (anon: bool)
    ensures anon <==> nombre.None? || AllSpace(nombre.value)
  {
    !Truthy(nombre) || Trim(nombre.value) == ""
  }

  /** `xs.join(',')`. */
  function Join(xs: seq<string>): (s: string)
    ensures |xs| == 0 ==> s == ""
    ensures |xs| > 0 ==> |xs[0]| <= |s| && s[..|xs[0]|] == xs[0]
  {
    if |xs| == 0 then ""
    else if |xs| == 1 then xs[0]
    else xs[0] + "," + Join(xs[1..])
  }

  /** `s.split(',')`: the pieces between commas, always at least one. */
  function Split(s: string): (parts: seq<string>)
    ensures |parts| == multiset(s)[','] + 1
    ensures forall i :: 0 <= i < |parts| ==> ',' !in parts[i]
    decreases |s|
  {
    match IndexOf(s, ',')
    case None => [s]
    case Some(i) =>
      assert s == s[..i] + [','] + s[i + 1..];
      assert multiset(s[..i])[','] == 0;
      [s[..i]] + Split(s[i + 1..])
  }

  /** How many commas the names hold in total. */
  ghost function Commas(xs: seq<string>): nat {
    if |xs| == 0 then 0 else multiset(xs[0])[','] + Commas(xs[1..])
  }

  lemma {:induction false} JoinCommas(xs: seq<string>)
    requires |xs| > 0
    ensures multiset(Join(xs))[','] == |xs| - 1 + Commas(xs)
  {
    if |xs| > 1 {
      JoinCommas(xs[1..]);
      assert Join(xs) == xs[0] + [','] + Join(xs[1..]);
    }
  }

  lemma {:induction false} NoCommasMeansCommaFree(xs: seq<string>)
    ensures Commas(xs) == 0 <==> forall i :: 0 <= i < |xs| ==> ',' !in xs[i]
  {
    if |xs| > 0 {
      NoCommasMeansCommaFree(xs[1..]);
      assert forall i :: 1 <= i < |xs| ==> xs[i] == xs[1..][i - 1];
    }
  }

  /**
   The notification's `archivos_adjuntos.split(',').length` equals the number
   of stored files exactly when no stored name contains a comma.
   */
  lemma AttachmentCountRecovered(files: seq<string>)
    requires |files| > 0
    ensures |Split(Join(files))| == |files| + Commas(files)
    ensures |Split(Join(files))| == |files| <==> forall i :: 0 <= i < |files| ==> ',' !in files[i]
  {
    JoinCommas(files);
    NoCommasMeansCommaFree(files);
  }

  /** The first comma of `a + "," + b` is the one after `a` when `a` has none. */
  lemma FirstCommaAfter(a: string, b: string)
    requires ',' !in a
    ensures IndexOf(a + "," + b, ',') == Some(|a|)
  {
    var s := a + "," + b;
    assert s[|a|] == ',';
    assert s[..|a|] == a;
  }

  /** Splitting a comma-free piece, a comma and the rest peels off that piece. */
  lemma SplitStep(a: string, b: string)
    requires ',' !in a
    ensures Split(a + "," + b) == [a] + Split(b)
  {
    var s := a + "," + b;
    FirstCommaAfter(a, b);
    assert s[..|a|] == a;
    assert s[|a| + 1..] == b;
  }

  /** A piece without commas splits into itself. */
  lemma SplitCommaFree(a: string)
    requires ',' !in a
    ensures Split(a) == [a]
  {
    assert IndexOf(a, ',').None?;
  }

  /** One name off the front: splitting the joined text peels off the first name. */
  lemma SplitJoinCons(xs: seq<string>)
    requires |xs| > 1 && ',' !in xs[0]
    ensures Split(Join(xs)) == [xs[0]] + Split(Join(xs[1..]))
  {
    assert Join(xs) == xs[0] + "," + Join(xs[1..]);
    SplitStep(xs[0], Join(xs[1..]));
  }

  /** For comma-free names, splitting the joined text gives back the names. */
  lemma {:induction false} SplitJoin(xs: seq<string>)
    requires |xs| > 0
    requires forall i :: 0 <= i < |xs| ==> ',' !in xs[i]
    ensures Split(Join(xs)) == xs
  {
    if |xs| == 1 {
      assert Join(xs) == xs[0];
      SplitCommaFree(xs[0]);
      assert xs == [xs[0]];
    } else {
      var tail := xs[1..];
      SplitJoinCons(xs);
      assert forall i :: 0 <= i < |tail| ==> tail[i] == xs[i + 1];
      SplitJoin(tail);
      assert [xs[0]] + tail == xs;
    }
  }

  /** The `reportData` object of the handler, built from a body that passed the required-field check. */
  function BuildRow(body: SubmitBody, files: seq<string>): (row: FeedbackRow)
    ensures row.anonymous <==> body.nombreReportante.None? || AllSpace(body.nombreReportante.value)
    ensures row.anonymous ==> row.name.None? && row.email.None? && row.phone.None?
    ensures !row.anonymous ==>
      row.name == body.nombreReportante && row.email == body.emailReportante && row.phone == body.telefonoReportante
    ensures row.company != "" && row.position != "" && row.situationRelation != ""
    ensures Truthy(body.empresa) ==> row.company == body.empresa.value
    ensures !Truthy(body.empresa) ==> row.company == NoCompany
    ensures Truthy(body.position) ==> row.position == body.position.value
    ensures !Truthy(body.position) ==> row.position == NotSpecified
    ensures Truthy(body.situationRelation) ==> row.situationRelation == body.situationRelation.value
    ensures !Truthy(body.situationRelation) ==> row.situationRelation == NotSpecified
    ensures row.reportType == body.tipoReporte && row.area == body.area && row.message == body.descripcion
    ensures Truthy(body.asunto) ==> row.subject == body.asunto
    ensures !Truthy(body.asunto) ==> row.subject == body.tipoReporte
    ensures |files| == 0 ==> row.attachmentUrls.None?
    ensures |files| > 0 && files[0] != "" ==> row.attachmentUrls == Some(Join(files))
    ensures row.puntosVenta.Some? ==> row.puntosVenta == body.puntosVenta && row.puntosVenta.value != ""
    ensures Truthy(body.puntosVenta) ==> row.puntosVenta == body.puntosVenta
    ensures row.incidentDate.Some? ==> row.incidentDate == body.fechaIncidente && row.incidentDate.value != ""
    ensures Truthy(body.fechaIncidente) ==> row.incidentDate == body.fechaIncidente
    ensures row.incidentDateInitial.Some? ==>
      row.incidentDateInitial == body.fechaIncidenteInicial && row.incidentDateInitial.value != ""
    ensures Truthy(body.fechaIncidenteInicial) ==> row.incidentDateInitial == body.fechaIncidenteInicial
    ensures row.incidentDateEnd.Some? ==> row.incidentDateEnd == body.fechaIncidenteFinal && row.incidentDateEnd.value != ""
    ensures Truthy(body.fechaIncidenteFinal) ==> row.incidentDateEnd == body.fechaIncidenteFinal
  {
    var anon := IsAnonymous(body.nombreReportante);
    FeedbackRow(
      if anon then None else body.nombreReportante,
      if anon then None else body.emailReportante,
      if anon then None else body.telefonoReportante,
      Or(body.empresa, NoCompany),
      Or(body.position, NotSpecified),
      Or(body.situationRelation, NotSpecified),
      body.tipoReporte,
      if Truthy(body.asunto) then body.asunto else body.tipoReporte,
      body.descripcion,
      anon,
      OrNull(Some(Join(files))),
      body.area,
      OrNull(body.puntosVenta),
      OrNull(body.fechaIncidente),
      OrNull(body.fechaIncidenteInicial),
      OrNull(body.fechaIncidenteFinal))
  }

  /** Each incident date column depends on its own field only. */
  lemma IncidentDatesIndependent(body: SubmitBody, files: seq<string>, single: Option<string>, initial: Option<string>)
    ensures BuildRow(body.(fechaIncidenteInicial := initial), files).incidentDate == BuildRow(body, files).incidentDate
    ensures BuildRow(body.(fechaIncidente := single), files).incidentDateInitial == BuildRow(body, files).incidentDateInitial
    ensures BuildRow(body.(fechaIncidente := single), files).incidentDateEnd == BuildRow(body, files).incidentDateEnd
  {
  }

  /** What the database does for this request: `connectDB` throws, the insert throws, or the insert succeeds. */
  datatype SubmitDb = ConnectFails | InsertFails | InsertSucceeds

  /**
   The `data` object of the success answer. It reads `reportData.tipo_reporte`
   and `reportData.es_anonimo`, which that object does not have, so those two
   are always undefined (None).
   */
  datatype SubmitData = SubmitData(tipoReporte: Option<string>, area: Option<string>, esAnonimo: Option<bool>, archivosAdjuntos: nat)

  datatype SubmitOutcome = SubmitOutcome(
    status: nat, success: bool, message: string, inserted: Option<FeedbackRow>, data: Option<SubmitData>)

  /** `POST /api/submit-report` once multer has stored `files` (their generated names, in upload order). */
  function Submit(body: SubmitBody, files: seq<string>, db: SubmitDb): (out: SubmitOutcome)
    ensures out.status == 400 <==> !HasRequiredFields(body)
    ensures out.status == 400 ==> !out.success && out.inserted.None? && out.message == MissingFieldsMessage
    ensures out.success <==> out.inserted.Some?
    ensures out.success <==> HasRequiredFields(body) && db.InsertSucceeds?
    ensures !out.success ==> out.data.None?
    ensures HasRequiredFields(body) && !db.InsertSucceeds? ==> out.status == 500 && out.message == InternalErrorMessage
    ensures out.success ==> out.status == 200 && out.inserted == Some(BuildRow(body, files))
    ensures out.success ==>
      out.data == Some(SubmitData(None, body.area, None, |files|))
  {
    if !HasRequiredFields(body) then SubmitOutcome(400, false, MissingFieldsMessage, None, None)
    else if db.ConnectFails? then SubmitOutcome(500, false, InternalErrorMessage, None, None)
    else
      var row := BuildRow(body, files);
      if db.InsertFails? then SubmitOutcome(500, false, InternalErrorMessage, None, None)
      else SubmitOutcome(200, true, SubmitOkMessage, Some(row), Some(SubmitData(None, row.area, None, |files|)))
  }

  /** A stored submission's `attachment_urls` splits back into exactly the stored file names. */
  lemma StoredAttachmentsListTheFiles(body: SubmitBody, files: seq<string>, db: SubmitDb)
    requires Submit(body, files, db).success
    requires |files| > 0
    requires forall i :: 0 <= i < |files| ==> files[i] != "" && ',' !in files[i]
    ensures var row := Submit(body, files, db).inserted.value;
      row.attachmentUrls.Some? && Split(row.attachmentUrls.value) == files
  {
    SplitJoin(files);
  }

  // ---------------------------------------------------------------------
  // Sessions and login
  // ---------------------------------------------------------------------

  /** What `req.session.user` holds after a login: never the password hash. */
  datatype SessionUser = SessionUser(id: int, email: string, nombre: Option<string>, rol: Option<string>)

  datatype Gate = Next | Unauthorized(status: nat, message: string)

  const UnauthorizedMessage := "Acceso no autorizado. Debe iniciar sesión."

  /** `requireAuth`: the protected handler runs exactly when the session carries a user. */
  function RequireAuth(session: Option<SessionUser>): (g: Gate)
    ensures g == Next <==> session.Some?
    ensures g.Unauthorized? ==> g.status == 401 && g.message == UnauthorizedMessage
  {
    if session.Some? then Next else Unauthorized(401, UnauthorizedMessage)
  }

  /** A row of the `users` table. */
  datatype UserRow = UserRow(
    id: int, email: string, passwordHash: string, nombre: Option<string>, rol: Option<string>,
    activo: bool, ultimoAcceso: Option<int>)

  /** `recordset[0]` of `WHERE email = @email AND activo = 1`, as an index into `users`. */
  function FindActive(users: seq<UserRow>, email: string): (i: Option<nat>)
    ensures i.Some? ==> i.value < |users| && users[i.value].email == email && users[i.value].activo
    ensures i.Some? ==> forall j :: 0 <= j < i.value ==> !(users[j].email == email && users[j].activo)
    ensures i.None? <==> forall j :: 0 <= j < |users| ==> !(users[j].email == email && users[j].activo)
  {
    if |users| == 0 then None
    else if users[0].email == email && users[0].activo then Some(0)
    else match FindActive(users[1..], email)
      case None =>
        assert forall j :: 1 <= j < |users| ==> users[j] == users[1..][j - 1];
        None
      case Some(k) =>
        assert forall j :: 1 <= j <= k ==> users[j] == users[1..][j - 1];
        Some(k + 1)
  }

  /** What the database does for a login: unreachable, fails on the access-time update, or works. */
  datatype LoginDb = LoginUnreachable | UpdateFails | LoginAvailable

  datatype LoginOutcome = LoginOutcome(
    status: nat, message: string, session: Option<SessionUser>, user: Option<SessionUser>, users: seq<UserRow>)

  const CredentialsRequiredMessage := "Email y contraseña son requeridos"
  const InvalidCredentialsMessage := "Credenciales inválidas"
  const LoginOkMessage := "Autenticación exitosa"

  function Public(u: UserRow): SessionUser {
    SessionUser(u.id, u.email, u.nombre, u.rol)
  }

  /** The password and the stored user's hash are accepted by `bcrypt.compare`. */
  predicate PasswordAccepted(users: seq<UserRow>, email: string, password: string, checkPassword: (string, string) -> bool) {
    var i := FindActive(users, email);
    i.Some? && checkPassword(password, users[i.value].passwordHash)
  }

  /**
   `POST /api/auth/login`. `checkPassword` stands for `bcrypt.compare`, `now`
   for `GETDATE()`, `session` for the session's user before the request.
   */
  function Login(users: seq<UserRow>, email: Option<string>, password: Option<string>,
                 checkPassword: (string, string) -> bool, db: LoginDb, now: int,
                 session: Option<SessionUser>): (out: LoginOutcome)
    ensures out.status == 400 <==> !Truthy(email) || !Truthy(password)
    ensures out.status == 400 ==> out.message == CredentialsRequiredMessage
    ensures out.status == 200 <==>
      Truthy(email) && Truthy(password) && db.LoginAvailable?
      && PasswordAccepted(users, email.value, password.value, checkPassword)
    ensures out.status == 401 <==>
      Truthy(email) && Truthy(password) && !db.LoginUnreachable?
      && !PasswordAccepted(users, email.value, password.value, checkPassword)
    ensures out.status == 401 ==> out.message == InvalidCredentialsMessage
    ensures out.status in {200, 400, 401, 500}
    ensures out.status != 200 ==> out.session == session && out.user.None? && out.users == users
    ensures out.status == 200 ==>
      var i := FindActive(users, email.value).value;
      && out.session == Some(Public(users[i])) && out.user == out.session
      && out.users == users[i := users[i].(ultimoAcceso := Some(now))]
  {
    if !Truthy(email) || !Truthy(password) then
      LoginOutcome(400, CredentialsRequiredMessage, session, None, users)
    else if db.LoginUnreachable? then
      LoginOutcome(500, InternalErrorMessage, session, None, users)
    else match FindActive(users, email.value)
      case None => LoginOutcome(401, InvalidCredentialsMessage, session, None, users)
      case Some(i) =>
        if !checkPassword(password.value, users[i].passwordHash) then
          LoginOutcome(401, InvalidCredentialsMessage, session, None, users)
        else if db.UpdateFails? then
          LoginOutcome(500, InternalErrorMessage, session, None, users)
        else
          var u := Public(users[i]);
          LoginOutcome(200, LoginOkMessage, Some(u), Some(u), users[i := users[i].(ultimoAcceso := Some(now))])
  }

  /**
   An unknown or inactive email and a wrong password for a known one give the
   same answer, so the response does not reveal which accounts exist.
   */
  lemma LoginFailuresAreUniform(
    unknown: seq<UserRow>, known: seq<UserRow>, email: string, password: string,
    checkPassword: (string, string) -> bool, db: LoginDb, now: int, session: Option<SessionUser>)
    requires email != "" && password != "" && !db.LoginUnreachable?
    requires FindActive(unknown, email).None?
    requires FindActive(known, email).Some?
    requires !checkPassword(password, known[FindActive(known, email).value].passwordHash)
    ensures var a := Login(unknown, Some(email), Some(password), checkPassword, db, now, session);
      var b := Login(known, Some(email), Some(password), checkPassword, db, now, session);
      a.status == b.status == 401 && a.message == b.message && a.session == b.session && a.user == b.user
  {
  }

  /** After a successful login the session passes the gate, as the logged-in user. */
  lemma LoginOpensGate(users: seq<UserRow>, email: Option<string>, password: Option<string>,
                       checkPassword: (string, string) -> bool, db: LoginDb, now: int, session: Option<SessionUser>)
    requires Login(users, email, password, checkPassword, db, now, session).status == 200
    ensures var out := Login(users, email, password, checkPassword, db, now, session);
      RequireAuth(out.session) == Next && out.session.value.email == email.value
  {
  }
}

=== FILE: upload.dfy ===
/**
 The upload rules shared by both server entry points: the extension that
 Node's `path.extname` (POSIX flavour) extracts from a client file name,
 the unanchored allow-list regular expressions of the two `fileFilter`s,
 and the 5 MiB size ceiling.
 */
module Upload {
  import opened Js

  /** `5 * 1024 * 1024`: the per-file ceiling of both servers and of the form. */
  const MaxFileBytes: nat := 5 * 1024 * 1024

  /** The alternatives of `/jpeg|jpg|png|gif|pdf|doc|docx|txt/` (server.js). */
  const ServerAllowList: seq<string> := ["jpeg", "jpg", "png", "gif", "pdf", "doc", "docx", "txt"]

  /** The alternatives of `/pdf|png|jpg|jpeg|doc|docx|xls|xlsx/` (the desktop variant). */
  const DesktopAllowList: seq<string> := ["pdf", "png", "jpg", "jpeg", "doc", "docx", "xls", "xlsx"]

  /** One part of a multipart body as `multer` describes it. */
  datatype FilePart = FilePart(originalName: string, mimetype: string, size: nat)

  function StripTrailingSlashes(p: string): (r: string)
    ensures |r| <= |p| && r == p[..|r|]
    ensures r == "" || r[|r| - 1] != '/'
  {
    if |p| > 0 && p[|p| - 1] == '/' then StripTrailingSlashes(p[..|p| - 1]) else p
  }

  /** The last path segment: what follows the last '/'. */
  function LastSegment(p: string): (r: string)
    ensures '/' !in r
    ensures |r| <= |p| && r == p[|p| - |r|..]
  {
    match LastIndexOf(p, '/')
    case None => p
    case Some(i) => p[i + 1..]
  }

  /** The extension of one path segment: from its last '.', unless that dot opens the segment or the segment is "..". */
  function SegmentExtension(b: string): (r: string)
    ensures r == "" || (r[0] == '.' && '.' !in r[1..] && |r| < |b| && r == b[|b| - |r|..])
  {
    match LastIndexOf(b, '.')
    case None => ""
    case Some(d) =>
      if d == 0 || b == ".." then ""
      else
        assert b[d..][1..] == b[d + 1..];
        b[d..]
  }

  /**
   `path.extname(p)`: the extension of the last segment of `p` once trailing
   slashes are dropped; "" when that segment has no '.', when its last '.'
   is its first character (".bashrc"), or when it is "..".
   */
  function Extname(p: string): (r: string)
    ensures r == "" || (r[0] == '.' && '.' !in r[1..] && '/' !in r)
  {
    var t := StripTrailingSlashes(p);
    var b := LastSegment(t);
    var r := SegmentExtension(b);
    assert r != "" ==> '/' !in r by {
      if r != "" {
        forall j | 0 <= j < |r| ensures r[j] != '/' { assert r[j] == b[|b| - |r| + j]; }
      }
    }
    r
  }

  /** For a plain file name (no '/'), the extension is the text from its last '.', when that '.' is not the first character. */
  lemma ExtnameOfPlainName(name: string, d: nat)
    requires '/' !in name
    requires 0 < d < |name| && name[d] == '.' && '.' !in name[d + 1..]
    requires name != ".."
    ensures Extname(name) == name[d..]
  {
    assert StripTrailingSlashes(name) == name;
    assert LastSegment(name) == name;
    assert LastIndexOf(name, '.') == Some(d);
  }

  /** `re.test(s)` for a regular expression that is a plain alternation of literals. */
  predicate MatchesAny(s: string, tokens: seq<string>) {
    exists i :: 0 <= i < |tokens| && Includes(s, tokens[i])
  }

  /**
   The `fileFilter` decision: the lower-cased extension AND the mimetype
   (as sent, not lower-cased) must each contain some allow-listed token.
   */
  predicate Accepts(allow: seq<string>, f: FilePart) {
    MatchesAny(ToLower(Extname(f.originalName)), allow) && MatchesAny(f.mimetype, allow)
  }

  /** The error each server passes to multer's callback for a refused file. */
  const ServerRejection := "Solo se permiten archivos de imagen, PDF y documentos"
  const DesktopRejection := "Tipo de archivo no permitido"

  /** `fileFilter`: None lets the file through, Some(message) refuses it. */
  function FileFilter(allow: seq<string>, rejection: string, f: FilePart): (err: Option<string>)
    ensures err.None? <==>
      (exists i, k :: 0 <= i < |allow| && OccursAt(ToLower(Extname(f.originalName)), allow[i], k))
      && (exists j, m :: 0 <= j < |allow| && OccursAt(f.mimetype, allow[j], m))
    ensures err.Some? ==> err.value == rejection
  {
    if Accepts(allow, f) then None else Some(rejection)
  }

  /** No allow-listed token is empty. */
  predicate NoEmptyToken(allow: seq<string>) {
    forall i :: 0 <= i < |allow| ==> allow[i] != ""
  }

  /** With non-empty tokens, an accepted name always carries a real extension. */
  lemma AcceptedNameHasExtension(allow: seq<string>, f: FilePart)
    requires NoEmptyToken(allow)
    ensures Accepts(allow, f) ==> Extname(f.originalName) != "" && Extname(f.originalName)[0] == '.'
  {
    if Accepts(allow, f) {
      var e := ToLower(Extname(f.originalName));
      var i :| 0 <= i < |allow| && Includes(e, allow[i]);
      assert allow[i] != "";
      var k :| OccursAt(e, allow[i], k);
      assert |e| > 0;
    }
  }

  lemma AllowListsHaveNoEmptyToken()
    ensures NoEmptyToken(ServerAllowList) && NoEmptyToken(DesktopAllowList)
  {
  }

  /** `path.extname(".pdf")` is "": the only '.' opens the name. */
  lemma HiddenNameHasNoExtension()
    ensures Extname(".pdf") == ""
  {
    assert LastIndexOf(".pdf", '/') == None;
    assert StripTrailingSlashes(".pdf") == ".pdf";
    assert LastIndexOf(".pdf", '.') == Some(0);
  }

  /** No non-empty token occurs in the empty string. */
  lemma EmptyMatchesNothing(allow: seq<string>)
    requires NoEmptyToken(allow)
    ensures !MatchesAny("", allow)
  {
  }

  /** A file called ".pdf" is refused: `path.extname` sees a hidden file with no extension. */
  lemma HiddenFileIsRefused(allow: seq<string>)
    requires allow == ServerAllowList || allow == DesktopAllowList
    ensures !Accepts(allow, FilePart(".pdf", "application/pdf", 10))
  {
    HiddenNameHasNoExtension();
    AllowListsHaveNoEmptyToken();
    EmptyMatchesNothing(allow);
    assert ToLower("") == "";
  }
}
